=== FILE: README.md ===
# opctorch in Dafny

A model of the engine of opctorch, a fire-and-scrolling-text animation for a
spiral-wound LED strip, driven over Open Pixel Control. The strip is a grid of
`leds_per_level` columns by `torch_levels` rows, stored as one flat array.
Each frame does the following:

- It (re)starts a message every 300 frames.
- It renders one slice of scrolling text into a text layer.
- It seeds the bottom row with flame energy and the second row with random sparks.
- It advances a per-cell energy state machine (PASSIVE, NOP, SPARK, SPARK_TEMP).
- It maps energy to colours, lays the text over them and sends the frame.

A small command side (main.c) splits client input into lines and keeps the
list of client connections.

Modules:

- `Bytes` (bytes.dfy): `uint8_t`/`uint16_t` conversions, `sat8add`/`sat8sub`,
  C division, `strlen`, and `Option`.
- `TorchConfig` (config.dfy): `default_conf` and `ini2conf`. The INI file is a
  map from full key to the integer the parser returns; -1 means absent.
- `Energy` (energy.dfy): `resetEnergy`, `random16`, `injectRandom` and
  `calcNextEnergy`.
  - `rand()` is an oracle sequence `rnd`.
  - `calcNextEnergy` is an array loop with in-place mode writes.
  - `Pass` is a reference fold that the loop is proved equal to, and the
    lemmas are stated about it.
- `Colour` (colour.dfy): `energymap`, dimming, `setColourDimmed` and the
  compositor `calcNextColours`.
- `TextRender` (text.dfy): `newMessage`, `crossFade` and `renderText`, over a
  `Font` value that stands for the font tables.
- `Torch` (torch.dfy): `create_torch` (buffers and the four-byte header) and
  one pass of the `run_torch` loop as `FrameStep`.
- `Control` (main.c side, control.dfy): `parseline`, `readfromsock`,
  `findsock`/`closesock`, the accept-time insertion and the `-l`/`-s` checks.

Behaviour of the source that the model keeps, and states, rather than repairs:

- PASSIVE cells read the flat neighbours `i - 1` and `i + 1`, so radiation
  bleeds across level ends.
- The last cell reads `currentEnergy[numleds]`, one past the end. That byte is
  the parameter `stray` of `Energy.VisitCell`.
- Row 0 may not be PASSIVE or SPARK_TEMP when the pass starts
  (`Energy.BottomRowReady`). `injectRandom` makes it NOP just before.
- The radiation sum reaches `sat8add` through a `uint8_t` parameter, so it
  wraps modulo 256 before the saturating add (`Energy.PassiveEnergy`).
- With `upside_down`, pixel 0 reads `nextEnergy[numleds]` and writes
  `currentEnergy[numleds]`, unless pixel 0 shows text. The read is the
  parameter `stray`. The write is reported as `overrun` by
  `Colour.CalcNextColours`.
- `c -= 0x20` on a signed `char` is negative for bytes below 0x20 and from
  0xA0 up. Only the upper bound is clamped. The byte then read before
  `fontBytes` is the parameter `outside`.
- `maxBright` is computed in `uint8_t` and wraps (`TextRender.MaxBrightWraps`).
- `text_repeats` is never set by `default_conf` or `ini2conf`, so it stays 0
  (`TorchConfig.TextRepeatsNeverSet`).
- `ini2conf` accepts `text_cycles_per_px = 0`
  (`TorchConfig.ZeroCyclesPerPixelAccepted`). `renderText` then divides by
  zero, and `Torch.FrameStep` reports that as `Crashed(DivisionByZero)`.
  The `random16` span `aMax - aMinOrMax + 1` is a `uint16_t`. It is 0 only
  when `flame_min == flame_max + 1` with `flame_max != 0` (`Energy.EmptySpan`).
  Both 0 gives a span of 1, and a larger gap wraps to a non-zero span. A zero
  flame span divides by zero at the first bottom-row cell. A zero spark span divides by zero only when
  a second-row spark test fires (`Torch.SparkDivides`). With
  `rnd_spark_prob = 0` no test fires, and the frame runs normally.
- `numleds` is a `uint16_t`. When the cell count overflows it, or there is no
  second row for sparks, `Torch.FrameStep` reports `Crashed(BufferOverrun)`.
  `create_torch` also accepts a negative `torch_levels` whose truncated count
  is positive (1 level of -1 gives 65535 cells). `ini2conf` rejects it. Then
  the level loop of `calcNextEnergy` runs no iteration and `nextEnergy` keeps
  the previous frame's bytes. Only a missing second row overruns.
- After a successful send the pacing computes `1000000 / update_rate`.
  `update_rate = 0` passes `create_torch` but not `ini2conf`, and then
  divides by zero. `Torch.FrameStep` reports that as `Crashed(DivisionByZero)`
  after the frame was sent.
- The client buffer closes as "Line too long" at 1023 bytes, even when a
  newline arrived in the same read (`Control.FullBufferDropsLine`).
- `-s` without a colon dereferences NULL (`Control.SplitServer` returns
  `NullDereference`).

## Model

| member | source | states |
|---|---|---|
| Bytes.Sat8Add | torch.c:365-375 | the saturating add is min(255, a + amount): a byte never wraps upwards |
| Bytes.Sat8Sub | torch.c:353-363 | the saturating subtract is max(0, a - amount): a byte never wraps below zero |
| Bytes.Sat8SubUndoesAdd | torch.c:353-375 | subtracting what was added restores the byte whenever the add did not saturate |
| Bytes.CStrLen | main.c:254 | the C string length is the position of the first NUL, or the whole buffer when there is none |
| Bytes.SaturatingMonotone | torch.c:353-375 | both saturating operations preserve the order of the byte they update |
| TorchConfig.DefaultConf | torch.c:71-110 | the four geometry fields start as "not given" (-1), text_repeats is 0, and the cycle count and update rate are positive |
| TorchConfig.GetInt | torch.c:113-116 | an integer key overrides the field exactly when the parser returns something other than -1 |
| TorchConfig.GetInt8 | torch.c:117-121 | a byte key overrides the field exactly when its value lies in 0..255, otherwise the field is kept |
| TorchConfig.LoadIni | torch.c:131-165 | loading never touches text_repeats, leaves an absent leds_per_level as it was, and takes text_cycles_per_px whenever it is a byte |
| TorchConfig.Validate | torch.c:167-197 | no error is reported exactly when all seven checks pass; a reported error is a failing check, and every earlier check passed |
| TorchConfig.Ini2Conf | torch.c:126-198 | the result is 0 or 1, 0 exactly when the loaded configuration passes every check, and the loaded configuration is the key-by-key load |
| TorchConfig.TextRepeatsNeverSet | torch.c:72-165 | starting from the defaults, text_repeats is 0 after any INI file |
| TorchConfig.MissingGeometryRejected | torch.c:167-170 | an INI file without leds_per_level fails, and fails on that first check |
| TorchConfig.ZeroCyclesPerPixelAccepted | torch.c:138-197 | a complete geometry with text_cycles_per_px = 0 passes validation and keeps the 0 |
| Energy.ResetEnergy | torch.c:377-387 | both energy buffers are zero and every cell is PASSIVE, for every cell of the strip |
| Energy.Random16 | torch.c:338-351 | the draw lies in [min, max] when max is non-zero and min <= max, and in [0, min] when max is 0 |
| Energy.EmptySpan | torch.c:343-349 | for byte bounds the uint16_t span is 0, so the modulo divides by zero, exactly when the maximum is non-zero and the minimum is one more than it |
| Energy.Random16Covers | torch.c:338-351 | every value of a non-empty range is produced by some draw |
| Energy.FlameRow | torch.c:499-503 | each bottom-row cell gets its own draw of random16(flame_min, flame_max) and becomes NOP; nothing else changes |
| Energy.DrawPos | torch.c:504-510 | second-row cell k starts drawing at or after the bottom row's draws and at most two draws per earlier second-row cell later |
| Energy.SparkCell | torch.c:504-510 | a second-row cell is either unchanged or becomes SPARK; it changes only when its spark test fires; a SPARK cell and a zero spark probability leave it alone; a new spark lies in [spark_min, spark_max] |
| Energy.SparkRow | torch.c:504-510 | each second-row cell is the spark-cell rule applied with its own draws; other rows are unchanged; the draws consumed are counted exactly; the spark span need only be defined when some test fires |
| Energy.SparkStep | torch.c:504-510 | one second-row iteration computes the spark-cell rule for that cell and advances the oracle position by the draws it consumed; spark_min/spark_max are drawn from only when the test fires |
| Energy.InjectRandom | torch.c:494-511 | bottom row gets flame energy (in [flame_min, flame_max] when that range is proper) and NOP; second-row SPARK cells are untouched; new sparks lie in [spark_min, spark_max]; rows from 2 up are unchanged; the buffers are the closed form `Injected` |
| Energy.InjectedRows | torch.c:499-510 | the closed form holds flame draws and NOP on the bottom row, leaves second-row SPARK cells alone and puts new sparks in [spark_min, spark_max] |
| Energy.Injected | torch.c:494-511 | the injected modes are ready for the pass (bottom row NOP) and rows from 2 up are as they were |
| Energy.PassiveEnergy | torch.c:438-440 | a PASSIVE cell keeps at least its retained heat (e * heat_cap) >> 8; with cold neighbours it gets exactly that and so never warms |
| Energy.GobbledEnergy | torch.c:428-430 | a gobbling cell ends with at most the saturated sum and at most spark_cap; spark_cap 0 leaves it empty |
| Energy.VisitCell | torch.c:409-446 | one visit changes modes only at the cell itself and the cells directly above and below it |
| Energy.Pass | torch.c:400-448 | the fold over the first k cells writes exactly k bytes of nextEnergy and does not touch bottom-row modes it has not reached |
| Energy.PassPrefix | torch.c:446 | a nextEnergy byte, once written, is not changed by later visits |
| Energy.ModeUntouched | torch.c:411-436 | a cell's mode is only changed by visits within one row of it |
| Energy.NextIsVisitEnergy | torch.c:409-446 | the final nextEnergy[i] is the byte the visit of cell i computed from the modes at that moment |
| Energy.EnergyRule | torch.c:409-446 | by the mode a cell has when visited: NOP carries its energy, SPARK loses spark_tfr, SPARK_TEMP gobbles an exhausted supporter or gains spark_tfr, PASSIVE keeps heat plus radiation, all from pre-pass energies |
| Energy.SparkMarksCellAbove | torch.c:411-420 | a SPARK below the top row makes the cell above SPARK_TEMP, and that cell is still SPARK_TEMP when the same pass reaches it |
| Energy.SparkTempHandOff | torch.c:421-436 | a SPARK_TEMP cell whose supporter had less than spark_tfr becomes SPARK and leaves the supporter PASSIVE; otherwise it stays SPARK_TEMP |
| Energy.GridIndex | torch.c:407-418 | cell (y, x) is inside the grid, and y < torch_levels - 1 holds exactly when the cell above exists |
| Energy.VisitStep | torch.c:409-446 | the loop body with in-place mode writes computes the same byte and modes as one visit of the reference fold |
| Energy.CalcRow | torch.c:408-447 | after one row the written bytes and the mode array equal the reference fold up to the end of that row |
| Energy.CalcNextEnergy | torch.c:400-448 | the nested array loops produce exactly the reference fold over every cell: the nextEnergy bytes and the modes after the pass, reading only currentEnergy |
| Colour.EnergyMapMonotone | torch.c:40 | the brightness table has 32 entries and never decreases |
| Colour.Dim | torch.c:303-312 | a dimmed channel never exceeds the channel, is 0 at brightness 0, and loses exactly one step at full brightness |
| Colour.DimMonotone | torch.c:309-311 | dimming is monotone in the brightness |
| Colour.SetColourDimmed | torch.c:303-312 | the pixel at lednum gets the dimmed colour, an index at or past the end changes nothing, and no other pixel changes |
| Colour.EnergyColour | torch.c:472-488 | energy above 250 is (170, 170, e); energy 0 is the background; burning cells are at least the bias colour |
| Colour.Channel | torch.c:477-483 | a burning cell's channel never falls below its bias: the energy term is added saturating |
| Colour.EnergyColourMonotone | torch.c:476-485 | between 1 and 250 a hotter cell is never darker in any channel |
| Colour.PixelColour | torch.c:461-489 | a text pixel is at most the text colour; any other pixel is at most the undimmed colour of its energy cell (cell numleds - i when upside down, the byte past the end for pixel 0), and the dimmed background when that cell is cold; brightness 0 gives black |
| Colour.CalcNextColours | torch.c:450-492 | every pixel is rewritten; a text pixel shows the text colour dimmed by the layer byte, the others the colour of their energy cell; only the energy-path cells are committed to currentEnergy; the upside-down overrun happens exactly when pixel 0 is not text |
| TextRender.NewMessage | torch.c:513-521 | the stored text is a NUL-free prefix of the message of at most 99 bytes, cut only at the limit or at the NUL; offset is -leds_per_level, cycle and repeat count 0 |
| TextRender.CrossFade | torch.c:523-533 | both outputs are at most the value and sum to base + value; with fader 0 the current pixel gets the whole value |
| TextRender.Fader | torch.c:546 | the cross-fade position is 0 at the start of a column step and stays below 255 within it |
| TextRender.Brights | torch.c:544-546 | both cross-fade brightnesses of a frame are at most maxBright |
| TextRender.MaxBright | torch.c:544 | the cap agrees with intensity - repeats * fade modulo 256, and equals it (at most the intensity) when the fade does not exceed the intensity |
| TextRender.MaxBrightWithoutRepeats | torch.c:544 | with text_repeats 0 the cap is the configured intensity |
| TextRender.MaxBrightWraps | torch.c:544 | the cap wraps in uint8_t: intensity 10 faded by 15 is 251 |
| TextRender.GlyphIndex | torch.c:565-568 | the glyph number is a signed char; when non-negative it is a font glyph or the substitute 95 |
| TextRender.PrintableGlyph | torch.c:565-568 | a printable character selects glyph ch - 0x20 |
| TextRender.ControlCharNegativeGlyph | torch.c:565-569 | bytes below 0x20 and from 0xA0 up give a negative glyph number that the clamp lets through |
| TextRender.GlyphInTable | torch.c:569 | every glyph column the clamp can select lies inside the font table |
| TextRender.Column | torch.c:553-573 | the glyph column is 0 in the two last logical columns, before the text, in the spacing between glyphs and after the text |
| TextRender.GlyphBit | torch.c:584 | a dot can only be lit in glyph rows 0 to 6 and only in a non-empty column |
| TextRender.CellIndex | torch.c:576-582 | for a column inside the level, the LED index of glyph row `row` lies in level `row`, for either winding |
| TextRender.CellIndexInverse | torch.c:576-582 | the winding-dependent LED index of a (row, column) lies in the text layer and its row and column can be recovered |
| TextRender.CellIndexCovers | torch.c:575-582 | every byte of the text layer is the LED of some glyph row and logical column |
| TextRender.CellIndexInjective | torch.c:576-582 | two different (row, column) cells never share an LED |
| TextRender.RenderedCell | torch.c:583-594 | a text byte is at least the cell's own dot and at most maxBright; a cell with no dot of its own and none to its right is 0 |
| TextRender.RenderedBelowMax | torch.c:583-594 | no text byte exceeds maxBright |
| TextRender.LastColumnsDark | torch.c:550-557 | the last two logical columns of every level stay 0 |
| TextRender.EmptyMessageDark | torch.c:556-573 | an empty message leaves the whole layer 0 |
| TextRender.EmptyTextBlank | torch.c:556-573 | every logical column of an empty message is 0 |
| TextRender.AdvanceScroll | torch.c:598-617 | the cycle stays in [0, text_cycles_per_px); the text is kept or removed; the repeat count grows by one exactly when the scroll passes the end of the text |
| TextRender.CyclesWithinColumn | torch.c:599-602 | within a column step only the cycle counter moves |
| TextRender.OffsetAdvancesEveryCycles | torch.c:599-602 | from the start of a column step, exactly text_cycles_per_px calls move the text one column |
| TextRender.EndOfText | torch.c:603-616 | passing the end counts a repeat and either removes the text (repeat budget used) or restarts it at -leds_per_level |
| TextRender.NoRepeatLimitKeepsText | torch.c:606 | with text_repeats 0 the message is never removed, however many frames pass |
| TextRender.RenderText | torch.c:535-618 | every byte of the text layer is rewritten to its closed-form rendered value (own dot, then the neighbour brightening capped at maxBright), whatever it held, and the scroll state advances one step |
| TextRender.RenderColumn | torch.c:552-597 | one outer iteration draws column x and finishes column x - 1, leaving the rest of the layer as it was |
| TextRender.RenderDot | torch.c:575-596 | one inner iteration sets the cell's own dot and, beside a dot, brightens the left neighbour saturating and capped |
| Torch.Header | torch.c:223-226 | the header is channel, command 0, and a big-endian length that decodes to 3 * numleds whenever that fits 16 bits |
| Torch.DefaultGeometryHeader | torch.c:207-226 | 11 by 21 LEDs give 231 pixels and length bytes 0x02 0xB5 |
| Torch.LongStripLengthWraps | torch.c:225-226 | a strip of 21846 pixels announces a length of 2: the length is truncated |
| Torch.CreateTorch | torch.c:201-236 | setup fails exactly on the two asserts; otherwise the running invariant holds, energy is zero, every cell PASSIVE, the text layer textPixels bytes of 0 |
| Torch.TextLayerRequestTooSmall | torch.c:218-221 | as written, the text layer is requested with textPixelOffset bytes, 0 at setup, fewer than the textPixels bytes written into it |
| Torch.DecimalString | torch.c:250-251 | the frame number prints as one or more decimal digits |
| Torch.DecimalRoundTrip | torch.c:250-251 | the printed frame number denotes the frame number |
| Torch.DecimalShort | torch.c:250-252 | a frame counter that fits an int prints in at most 99 characters, so the message is not cut |
| Torch.FrameText | torch.c:249-253 | every 300th frame restarts the scroll with the frame number as message; other frames keep the scroll state |
| Torch.DividesByZero | torch.c:343-349 | the frame computation (before the send) divides by zero exactly when text_cycles_per_px is 0 (torch.c:546), the flame bounds give a zero span, or the spark division fires (torch.c:506-507); with spark probability 0 only the first two remain |
| Torch.SparkDivides | torch.c:504-507 | the spark draw divides by zero only for a zero spark span, and never when the spark probability is 0 |
| Torch.Overruns | torch.c:207 | for a strip that passed setup with at least one level, the loops overrun exactly when leds_per_level * torch_levels exceeds 65535 (numleds is truncated, and the level loop of torch.c:407 leaves the buffer) or there are fewer than two levels (the second-row loop of torch.c:505 leaves it); with torch_levels <= 0 exactly when the buffer has no second row |
| Torch.RunFrame | torch.c:249-259 | a frame without faults keeps the running invariant, counts the frame, renders the layer from the frame's message, composes every pixel, commits the energy path, and leaves nextEnergy and the modes as the energy pass over the injected buffers, with uncommitted cells holding their injected energy; with torch_levels <= 0 there is no pass and nextEnergy keeps the previous frame's bytes |
| Torch.FrameStep | torch.c:249-267 | the frame crashes on a division by zero exactly when text_cycles_per_px is 0, flame_min == flame_max + 1 with flame_max != 0 (the uint16_t span wraps to 0), or the spark span is 0 in the same way and a spark test fires inside the buffer; otherwise it crashes on an overrun exactly when the cell count overflowed uint16_t or there is no second row; it fails exactly when the send fails; after a successful send it crashes on a division by zero exactly when update_rate is 0 (torch.c:267); whenever the frame was computed it is the frame of RunFrame |
| Control.CutAt | main.c:219-224 | the cut is a prefix without the character, ended by it or by the end of the buffer |
| Control.CommandIsFirstLine | main.c:219-224 | cutting at the first newline and then at the first carriage return keeps exactly the bytes before the first line break of either kind |
| Control.ParseLine | main.c:214-231 | a first line equal to "quit" quits; any other first line goes to the torch as the command, exactly once |
| Control.QuitIgnoresRest | main.c:219-229 | "quit" followed by any line break quits whatever follows |
| Control.FindSock | main.c:200-212 | the result is the first entry with that descriptor, or none exactly when no entry has it |
| Control.AddClient | main.c:423-433 | an accepted client goes to the head of the list and the count grows by one |
| Control.CloseSock | main.c:260-275 | an unknown descriptor changes nothing; a known one unlinks exactly the entry found and the count drops by one |
| Control.CloseUndoesAdd | main.c:260-275 | closing the descriptor just accepted gives back the list as it was |
| Control.CloseKeepsCount | main.c:269-271 | a count that matched the list still matches after a close |
| Control.ReadFromSock | main.c:233-258 | buffers stay below 1023 bytes; a failed read and a buffer reaching 1023 bytes close the client unparsed; a line is parsed exactly when the read succeeded, the limit was not reached and the buffer's C string holds a newline, and it is the first line of that C string, after which the client is closed; otherwise the client stays with the received bytes appended and the count unchanged |
| Control.FullBufferDropsLine | main.c:249-253 | reaching 1023 bytes closes without parsing, whether or not a newline arrived |
| Control.SingleLineParsed | main.c:254-257 | a single complete line on an empty buffer is parsed exactly as sent and the connection is closed |
| Control.ListenPort | main.c:314-318 | a listen port is accepted exactly in 1..65535 and kept unchanged |
| Control.SplitServer | main.c:335-340 | there is a host:port split exactly when the argument has a colon; the host has no colon and host, colon, port rebuild the argument |
| Control.SplitJoin | main.c:335-340 | splitting a colon-free host joined to a port by a colon gives back both |
| Control.SplitUnique | main.c:336-340 | a server argument has at most one split into a colon-free host, a colon and a port |

## Left out

- Sockets and `send`: `sendLEDs` is the parameter `sendOk` of `Torch.FrameStep`. `read` is the parameter `incoming` of `Control.ReadFromSock`. `getaddrinfo`, `createlisten`, `opcconnect`, `get_ip_str` and the `poll`/`accept` loop are network I/O.
- Threads, the mutex and signal teardown: the model is one sequential frame.
- `gettimeofday`, `usleep` and the diagnostic `printf` in `run_torch`: wall-clock pacing with no result to state. The one fault in the pacing, the division by `update_rate`, is modelled in `Torch.FrameStep`.
- Torch.DividesByZero: covers only the divisions before the send. The pacing division `1000000 / update_rate` follows the send, so `Torch.FrameStep` states it separately, and only when the send succeeded.
- `ciniparser`: a foreign library. The INI file is a key-to-int map, and the boolean getter's text parsing is not modelled.
- `rand()`: a foreign library. Its values are the oracle `rnd`.
- `cmd_torch`: it only logs, and main.c calls it with a different argument list. `Control.ParseLine` returns the command it would receive.
- opctorch.c: a one-shot test sender of a fixed buffer.
- The BLE front end in nodejs: thin wrappers over a library that is not part of this model.
- config.h: only constants. It is used for the 11 by 21 geometry of `Torch.DefaultGeometryHeader`.
- font.h is not part of this model. The font constants and table are a `TextRender.Font` value, and `TextRender.WellFormed` states what the renderer needs of them.
- `malloc` failure and `free_torch`: allocation is not modelled. The pixel buffer, which `malloc` leaves uninitialised, starts black. `Colour.CalcNextColours` rewrites every pixel before the first send.
- `atoi` for `-l`: `Control.ListenPort` takes the integer `atoi` returns.
- `usage`, the `argc` check, and the check that a server host and port were given somewhere (main.c:343-345): option plumbing around the modelled checks.
- The `int` frame counter's overflow: `Torch.FrameStep` requires `frame < 2^31 - 1`.
- Glyph rows from 32 on, where `0x40 >> glyphRow` is undefined in C: `TextRender.GlyphBit` treats every row from 7 on as blank.
- Colour.CalcNextColours: the upside-down write to `currentEnergy[numleds]` is reported as `overrun` but not performed, since the bytes past the buffer are not part of the model.
- TextRender.SignedChar: `char` is taken as signed, as on x86. Where `char` is unsigned (ARM), bytes below 0x20 wrap to 224 and up and clamp to glyph 95 instead of reading before the font. `TextRender.GlyphIndex` does not model that case.
- Energy.CalcNextEnergy: requires the bottom row to be NOP or SPARK (`Energy.BottomRowReady`). PASSIVE and SPARK_TEMP there would read before the array. `injectRandom` establishes this in every frame.

## Findings

| source | as written | input that shows it | evidently intended | confidence | as-written member | corrected member |
|---|---|---|---|---|---|---|
| torch.c:220 | the text layer is allocated with `textPixelOffset * sizeof(textLayer[0])` bytes | any configuration that passes setup: `textPixelOffset` is still 0 in `create_torch`, while `textPixels = leds_per_level * ROWS_PER_GLYPH` is at least 1 and `resetText`/`renderText` write that many bytes | allocate `textPixels` bytes | not executed | Torch.TextLayerRequestTooSmall | Torch.CreateTorch |

=== FILE: bytes.dfy ===
/**
 Fixed-width integer helpers for the torch engine: the C conversions to
 `uint8_t` and `uint16_t`, C's truncating division, the saturating byte
 arithmetic (`sat8add`, `sat8sub`) that keeps every energy and text byte
 inside [0, 255], and the C-string length.
 */
module Bytes {

  /** A value that may be absent (a NULL pointer, a check that passed). */
  datatype Option<T> = None | Some(value: T)

  /** An `uint8_t` value. */
  type byte = x: int | 0 <= x < 256

  /** An `uint16_t` value. */
  type u16 = x: int | 0 <= x < 0x1_0000

  /** The smaller of two integers. */
  function Min(a: int, b: int): int { if a <= b then a else b }

  /** The larger of two integers. */
  function Max(a: int, b: int): int { if a <= b then b else a }

  /** Conversion of an int to `uint8_t`: reduction modulo 2^8. */
  function ToByte(x: int): (r: byte)
    ensures 0 <= x < 256 ==> r == x
    ensures (r - x) % 256 == 0
  {
    x % 256
  }

  /** Conversion of an int to `uint16_t`: reduction modulo 2^16. */
  function ToU16(x: int): (r: u16)
    ensures 0 <= x < 0x1_0000 ==> r == x
    ensures (r - x) % 0x1_0000 == 0
  {
    x % 0x1_0000
  }

  /** C's `/` on `int`: the quotient is truncated toward zero. */
  function CDiv(a: int, b: int): (q: int)
    requires b > 0
    ensures a >= 0 ==> q == a / b
    ensures a < 0 ==> q <= 0 && q * b >= a && (q - 1) * b < a
  {
    if a >= 0 then a / b else -((-a) / b)
  }

  /** `sat8add(&a, amount)`: the sum, clamped at 255 instead of wrapping. */
  function Sat8Add(a: byte, amount: byte): (r: byte)
    ensures r == Min(255, a + amount)
  {
    var s := a + amount;
    if s > 255 then 255 else s
  }

  /** `sat8sub(&a, amount)`: the difference, clamped at 0 instead of wrapping. */
  function Sat8Sub(a: byte, amount: byte): (r: byte)
    ensures r == Max(0, a - amount)
  {
    var s := a - amount;
    if s < 0 then 0 else s
  }

  /** Subtracting what was added gives the byte back when the sum did not saturate. */
  lemma Sat8SubUndoesAdd(a: byte, b: byte)
    requires a + b <= 255
    ensures Sat8Sub(Sat8Add(a, b), b) == a
  {
  }

  /** Adding back what was subtracted gives the byte back when the difference did not clamp. */
  lemma Sat8AddUndoesSub(a: byte, b: byte)
    requires b <= a
    ensures Sat8Add(Sat8Sub(a, b), b) == a
  {
  }

  /** Both saturating operations are monotone in the byte they update. */
  lemma SaturatingMonotone(a1: byte, a2: byte, b: byte)
    requires a1 <= a2
    ensures Sat8Add(a1, b) <= Sat8Add(a2, b)
    ensures Sat8Sub(a1, b) <= Sat8Sub(a2, b)
  {
  }

  /** A read of `s[k]` where `k` may be one past the end of the buffer: the
      byte found there is not part of the buffer and is supplied as `stray`. */
  function ReadAt(s: seq<byte>, k: int, stray: byte): (r: byte)
    ensures 0 <= k < |s| ==> r == s[k]
    ensures !(0 <= k < |s|) ==> r == stray
  {
    if 0 <= k < |s| then s[k] else stray
  }

  /** `strlen`: the number of bytes before the first NUL (or all of them). */
  function CStrLen(s: seq<byte>): (n: nat)
    ensures n <= |s|
    ensures forall k :: 0 <= k < n ==> s[k] != 0
    ensures n < |s| ==> s[n] == 0
  {
    if |s| == 0 || s[0] == 0 then 0 else 1 + CStrLen(s[1..])
  }

  /** Bytes without a NUL are all C string: `strlen` counts every one. */
  lemma CStrLenNoNul(s: seq<byte>)
    requires 0 !in s
    ensures CStrLen(s) == |s|
  {
    if CStrLen(s) < |s| {
      assert s[CStrLen(s)] == 0;
    }
  }

  /** The product of two bytes fits in 16 bits, so `(a * b) >> 8` is a byte. */
  lemma ByteProduct(a: byte, b: byte)
    ensures 0 <= a * b <= 255 * 255
    ensures (a * b) / 256 <= a
    ensures (a * b) / 256 <= b
  {
    MulMonotone(a, b, 255);
    MulMonotone(b, a, 255);
    MulMonotone(a, 0, b);
    var p := a * b;
    assert 0 <= p;
    assert p == b * a;
    assert p <= 255 * a && p <= 255 * b;
    var q := p / 256;
    assert q * 256 <= p;
  }

  /** Multiplying by a non-negative factor preserves `<=`. */
  lemma MulMonotone(k: int, x: int, y: int)
    requires 0 <= k && x <= y
    ensures k * x <= k * y
  {
    assert k * y - k * x == k * (y - x);
  }
}

=== FILE: colour.dfy ===
/**
 The colour stage of the torch (torch.c): the 32-entry brightness table
 `energymap`, the energy-to-RGB rule, integer dimming (`setColourDimmed`)
 and the compositor `calcNextColours`, which lays the text overlay over the
 energy colours and commits `nextEnergy` into `currentEnergy` for the pixels
 that show energy.
 */
module Colour {
  import opened Bytes
  import opened TorchConfig

  /** `RGBPixel`. */
  datatype Rgb = Rgb(red: byte, green: byte, blue: byte)

  /** `energymap`: non-linear brightness by `energy >> 3`. */
  const EnergyMap: seq<byte> := [0, 64, 96, 112, 128, 144, 152, 160, 168, 176, 184, 184, 192, 200, 200, 208,
                                 208, 216, 216, 224, 224, 224, 232, 232, 232, 240, 240, 240, 240, 248, 248, 248]

  /** The table has 32 entries and never decreases. */
  lemma {:induction false} EnergyMapMonotone(a: int, b: int)
    requires 0 <= a <= b < 32
    ensures |EnergyMap| == 32
    ensures EnergyMap[a] <= EnergyMap[b]
    decreases b - a
  {
    if a < b {
      EnergyMapMonotone(a, b - 1);
      EnergyMapStep(b - 1);
    }
  }

  /** Neighbouring table entries are ordered. */
  lemma EnergyMapStep(k: int)
    requires 0 <= k < 31
    ensures |EnergyMap| == 32
    ensures EnergyMap[k] <= EnergyMap[k + 1]
  {
  }

  /** One channel dimmed: `(channel * bright) >> 8`. */
  function Dim(channel: byte, bright: byte): (d: byte)
    ensures d <= channel
    ensures bright == 0 ==> d == 0
    ensures bright == 255 && channel > 0 ==> d == channel - 1
  {
    ByteProduct(channel, bright);
    (channel * bright) / 256
  }

  /** Dimming never brightens and is monotone in the brightness. */
  lemma DimMonotone(channel: byte, b1: byte, b2: byte)
    requires b1 <= b2
    ensures Dim(channel, b1) <= Dim(channel, b2)
  {
    MulMonotone(channel, b1, b2);
  }

  /** All three channels of a colour dimmed by the same brightness. */
  function DimRgb(c: Rgb, bright: byte): Rgb
  {
    Rgb(Dim(c.red, bright), Dim(c.green, bright), Dim(c.blue, bright))
  }

  /** `setColourDimmed`: writes pixel `lednum` dimmed by `bright`; an index at or
      past the end of the strip changes nothing. */
  function SetColourDimmed(pixels: seq<Rgb>, lednum: u16, c: Rgb, bright: byte): (r: seq<Rgb>)
    ensures |r| == |pixels|
    ensures lednum < |pixels| ==> r[lednum] == DimRgb(c, bright)
    ensures forall j :: 0 <= j < |r| && j != lednum ==> r[j] == pixels[j]
  {
    if lednum >= |pixels| then pixels else pixels[lednum := DimRgb(c, bright)]
  }

  /** One channel of a burning cell: `sat8add(bias, (level * coeff) >> 8)`. */
  function Channel(bias: byte, level: byte, coeff: byte): (r: byte)
    ensures r >= bias
  {
    ByteProduct(level, coeff);
    Sat8Add(bias, (level * coeff) / 256)
  }

  /** The undimmed colour of energy `e`: a blue-ish flash above 250, the
      bias-plus-table colour for a burning cell, the background for energy 0. */
  function EnergyColour(c: Config, e: byte): (r: Rgb)
    ensures e > 250 ==> r == Rgb(170, 170, e)
    ensures e == 0 ==> r == Rgb(c.redBg, c.greenBg, c.blueBg)
    ensures 0 < e <= 250 ==> r.red >= c.redBias && r.green >= c.greenBias && r.blue >= c.blueBias
  {
    if e > 250 then Rgb(170, 170, e)
    else if e > 0 then
      var level := EnergyMap[e / 8];
      Rgb(Channel(c.redBias, level, c.redEnergy),
          Channel(c.greenBias, level, c.greenEnergy),
          Channel(c.blueBias, level, c.blueEnergy))
    else Rgb(c.redBg, c.greenBg, c.blueBg)
  }

  /** In the burning range a hotter cell is never darker, channel by channel,
      because the brightness table never decreases. */
  lemma EnergyColourMonotone(c: Config, e1: byte, e2: byte)
    requires 0 < e1 <= e2 <= 250
    ensures EnergyColour(c, e1).red <= EnergyColour(c, e2).red
    ensures EnergyColour(c, e1).green <= EnergyColour(c, e2).green
    ensures EnergyColour(c, e1).blue <= EnergyColour(c, e2).blue
  {
    EnergyMapMonotone(e1 / 8, e2 / 8);
    var l1, l2 := EnergyMap[e1 / 8], EnergyMap[e2 / 8];
    ChannelMonotone(c.redBias, l1, l2, c.redEnergy);
    ChannelMonotone(c.greenBias, l1, l2, c.greenEnergy);
    ChannelMonotone(c.blueBias, l1, l2, c.blueEnergy);
  }

  /** Serves `EnergyColourMonotone`: a brighter table level never lowers a channel. */
  lemma ChannelMonotone(bias: byte, l1: byte, l2: byte, coeff: byte)
    requires l1 <= l2
    ensures Channel(bias, l1, coeff) <= Channel(bias, l2, coeff)
  {
    MulMonotone(coeff, l1, l2);
    assert l1 * coeff <= l2 * coeff;
    ByteProduct(l1, coeff);
    ByteProduct(l2, coeff);
    DivMonotone(l1 * coeff, l2 * coeff);
  }

  /** Serves `ChannelMonotone`: `>> 8` preserves `<=`. */
  lemma DivMonotone(a: int, b: int)
    requires 0 <= a <= b
    ensures a / 256 <= b / 256
  {
  }

  /** The text band of the strip: rows `text_base_line .. text_base_line + rows - 1`. */
  function TextStart(c: Config): int { c.textBaseLine * c.ledsPerLevel }

  /** One past the last pixel of the text band. */
  function TextEnd(c: Config, rowsPerGlyph: int): int { TextStart(c) + rowsPerGlyph * c.ledsPerLevel }

  /** Pixel `i` shows text: it lies in the band and its text-layer byte is non-zero. */
  predicate TextCovers(c: Config, rowsPerGlyph: int, layer: seq<byte>, i: int)
    requires |layer| == rowsPerGlyph * c.ledsPerLevel
  {
    TextStart(c) <= i < TextEnd(c, rowsPerGlyph) && layer[i - TextStart(c)] > 0
  }

  /** The energy cell that feeds pixel `i`: `numleds - i` when upside down.
      For pixel 0 that is `numleds`, one past the end of the buffers. */
  function EnergyIndex(c: Config, numleds: int, i: int): int
  {
    if c.upsideDown != 0 then numleds - i else i
  }

  /** The colour `calcNextColours` gives pixel `i`. `stray` is the byte read
      from `nextEnergy[numleds]` when the upside-down index leaves the buffer. */
  function PixelColour(c: Config, rowsPerGlyph: int, next: seq<byte>, layer: seq<byte>, i: int, stray: byte): (r: Rgb)
    requires |layer| == rowsPerGlyph * c.ledsPerLevel
    ensures TextCovers(c, rowsPerGlyph, layer, i) ==>
              r.red <= c.textRed && r.green <= c.textGreen && r.blue <= c.textBlue
    ensures !TextCovers(c, rowsPerGlyph, layer, i) ==>
              var e := EnergyColour(c, ReadAt(next, EnergyIndex(c, |next|, i), stray));
              r.red <= e.red && r.green <= e.green && r.blue <= e.blue
    ensures !TextCovers(c, rowsPerGlyph, layer, i) && ReadAt(next, EnergyIndex(c, |next|, i), stray) == 0 ==>
              r == DimRgb(Rgb(c.redBg, c.greenBg, c.blueBg), c.brightness)
    ensures c.brightness == 0 ==> r == Rgb(0, 0, 0)
  {
    if TextCovers(c, rowsPerGlyph, layer, i) then
      ByteProduct(c.brightness, layer[i - TextStart(c)]);
      DimRgb(Rgb(c.textRed, c.textGreen, c.textBlue), (c.brightness * layer[i - TextStart(c)]) / 256)
    else
      DimRgb(EnergyColour(c, ReadAt(next, EnergyIndex(c, |next|, i), stray)), c.brightness)
  }

  /** Energy cell `j` is committed (`currentEnergy[j] := nextEnergy[j]`) by one
      of the pixels `0 .. upTo-1`: the pixel that reads it is on the energy path. */
  predicate CommittedBefore(c: Config, rowsPerGlyph: int, layer: seq<byte>, n: int, upTo: int, j: int)
    requires |layer| == rowsPerGlyph * c.ledsPerLevel
  {
    if c.upsideDown != 0 then
      1 <= j && n - j < upTo && !TextCovers(c, rowsPerGlyph, layer, n - j)
    else
      j < upTo && !TextCovers(c, rowsPerGlyph, layer, j)
  }

  /** `calcNextColours`: every pixel is rewritten; text pixels take the text
      colour dimmed by the layer byte, the others the energy colour of their
      cell, whose next energy is committed into `currentEnergy`. `overrun`
      reports the upside-down write to `currentEnergy[numleds]`, one past the
      buffer, which the model does not perform. */
  method CalcNextColours(c: Config, rowsPerGlyph: int, cur: seq<byte>, next: seq<byte>, layer: seq<byte>,
                         pixels: seq<Rgb>, stray: byte)
    returns (pixels': seq<Rgb>, cur': seq<byte>, overrun: bool)
    requires |next| == |cur| == |pixels| < 0x1_0000
    requires |layer| == rowsPerGlyph * c.ledsPerLevel
    ensures |pixels'| == |pixels| && |cur'| == |cur|
    ensures forall i :: 0 <= i < |pixels| ==> pixels'[i] == PixelColour(c, rowsPerGlyph, next, layer, i, stray)
    ensures forall j :: 0 <= j < |cur| ==>
              cur'[j] == if CommittedBefore(c, rowsPerGlyph, layer, |cur|, |cur|, j) then next[j] else cur[j]
    ensures overrun <==> c.upsideDown != 0 && |cur| > 0 && !TextCovers(c, rowsPerGlyph, layer, 0)
  {
    var n := |cur|;
    var textStart := TextStart(c);
    var textEnd := TextEnd(c, rowsPerGlyph);
    pixels', cur', overrun := pixels, cur, false;
    var i := 0;
    while i < n
      invariant 0 <= i <= n
      invariant |pixels'| == n && |cur'| == n
      invariant forall k :: 0 <= k < i ==> pixels'[k] == PixelColour(c, rowsPerGlyph, next, layer, k, stray)
      invariant forall j :: 0 <= j < n ==>
                  cur'[j] == if CommittedBefore(c, rowsPerGlyph, layer, n, i, j) then next[j] else cur[j]
      invariant overrun <==> c.upsideDown != 0 && i > 0 && !TextCovers(c, rowsPerGlyph, layer, 0)
    {
      if i >= textStart && i < textEnd && layer[i - textStart] > 0 {
        // overlay with the text colour
        ByteProduct(c.brightness, layer[i - textStart]);
        pixels' := SetColourDimmed(pixels', i, Rgb(c.textRed, c.textGreen, c.textBlue),
                                   (c.brightness * layer[i - textStart]) / 256);
      } else {
        var ei := if c.upsideDown != 0 then n - i else i;
        var e := ReadAt(next, ei, stray);
        if 0 <= ei < n {
          cur' := cur'[ei := e];
        } else {
          // the write to currentEnergy[numleds] lands past the buffer
          overrun := true;
        }
        pixels' := SetColourDimmed(pixels', i, EnergyColour(c, e), c.brightness);
      }
      i := i + 1;
    }
  }
}

=== FILE: config.dfy ===
/**
 The torch configuration: the defaults of `default_conf` and the
 loading-plus-validation of `ini2conf` (torch.c). The INI dictionary is a map
 from the full key (`"torch:leds_per_level"`, ...) to the integer the parser
 returns for it; a key that is not present reads as -1, the default the source
 passes to the parser. For the two boolean keys the map holds what the
 boolean getter returns (1, 0, or -1 when absent or unreadable).
 */
module TorchConfig {
  import opened Bytes

  /** `struct config_t`. The fields loaded with the byte-range check are bytes;
      the others are plain ints. */
  datatype Config = Config(
    ledsPerLevel: int,
    torchLevels: int,
    woundCwise: int,
    torchChan: int,
    brightness: byte,
    fadeBase: byte,
    textIntensity: byte,
    textCyclesPerPx: byte,
    textRepeats: int,
    fadePerRepeat: byte,
    textBaseLine: byte,
    textRed: byte,
    textGreen: byte,
    textBlue: byte,
    flameMin: byte,
    flameMax: byte,
    rndSparkProb: byte,
    sparkMin: byte,
    sparkMax: byte,
    sparkTfr: byte,
    sparkCap: byte,
    upRad: byte,
    sideRad: byte,
    heatCap: byte,
    redBg: byte,
    greenBg: byte,
    blueBg: byte,
    redBias: byte,
    greenBias: byte,
    blueBias: byte,
    redEnergy: byte,
    greenEnergy: byte,
    blueEnergy: byte,
    upsideDown: int,
    updateRate: int
  )

  /** `default_conf`: the required geometry fields start at -1 ("not given");
      `text_repeats` is left at the 0 of the initial memset. */
  function DefaultConf(): (c: Config)
    ensures c.ledsPerLevel == -1 && c.torchLevels == -1
    ensures c.woundCwise == -1 && c.torchChan == -1
    ensures c.textRepeats == 0
    ensures c.textCyclesPerPx > 0 && c.updateRate > 0
  {
    Config(
      ledsPerLevel := -1, torchLevels := -1, woundCwise := -1, torchChan := -1,
      brightness := 255, fadeBase := 140, textIntensity := 200,
      textCyclesPerPx := 5, textRepeats := 0, fadePerRepeat := 50,
      textBaseLine := 3, textRed := 255, textGreen := 40, textBlue := 40,
      flameMin := 100, flameMax := 220, rndSparkProb := 2,
      sparkMin := 200, sparkMax := 255, sparkTfr := 40, sparkCap := 200,
      upRad := 40, sideRad := 35, heatCap := 0,
      redBg := 0, greenBg := 0, blueBg := 0,
      redBias := 10, greenBias := 0, blueBias := 0,
      redEnergy := 180, greenEnergy := 145, blueEnergy := 0,
      upsideDown := 0, updateRate := 30)
  }

  /** The parsed INI file: full key to the integer the parser reads. */
  type Ini = map<string, int>

  /** The parser's lookup of a full key, with default -1. */
  function IniGet(ini: Ini, key: string): int
  {
    if key in ini then ini[key] else -1
  }

  /** `INI_GET_INT` / `INI_GET_BOOL`: take the value unless it reads as -1. */
  function GetInt(ini: Ini, key: string, current: int): (r: int)
    ensures IniGet(ini, key) == -1 ==> r == current
    ensures IniGet(ini, key) != -1 ==> r == IniGet(ini, key)
  {
    var v := IniGet(ini, key);
    if v != -1 then v else current
  }

  /** `INI_GET_INT8`: take the value only when it is present and in [0, 255]. */
  function GetInt8(ini: Ini, key: string, current: byte): (r: byte)
    ensures 0 <= IniGet(ini, key) <= 255 ==> r == IniGet(ini, key)
    ensures !(0 <= IniGet(ini, key) <= 255) ==> r == current
  {
    var v := IniGet(ini, key);
    if v != -1 && 0 <= v <= 255 then v else current
  }

  /** The loading half of `ini2conf`, key by key in source order. */
  function LoadIni(ini: Ini, c: Config): (r: Config)
    ensures r.textRepeats == c.textRepeats
    ensures IniGet(ini, "torch:leds_per_level") == -1 ==> r.ledsPerLevel == c.ledsPerLevel
    ensures 0 <= IniGet(ini, "torch:text_cycles_per_px") <= 255 ==> r.textCyclesPerPx == IniGet(ini, "torch:text_cycles_per_px")
  {
    c.(
      ledsPerLevel := GetInt(ini, "torch:leds_per_level", c.ledsPerLevel),
      torchLevels := GetInt(ini, "torch:torch_levels", c.torchLevels),
      woundCwise := GetInt(ini, "torch:wound_cwise", c.woundCwise),
      torchChan := GetInt(ini, "torch:torch_chan", c.torchChan),
      brightness := GetInt8(ini, "torch:brightness", c.brightness),
      fadeBase := GetInt8(ini, "torch:fade_base", c.fadeBase),
      textIntensity := GetInt8(ini, "torch:text_intensity", c.textIntensity),
      textCyclesPerPx := GetInt8(ini, "torch:text_cycles_per_px", c.textCyclesPerPx),
      fadePerRepeat := GetInt8(ini, "torch:fade_per_repeat", c.fadePerRepeat),
      textBaseLine := GetInt8(ini, "torch:text_base_line", c.textBaseLine),
      textRed := GetInt8(ini, "torch:text_red", c.textRed),
      textGreen := GetInt8(ini, "torch:text_green", c.textGreen),
      textBlue := GetInt8(ini, "torch:text_blue", c.textBlue),
      flameMin := GetInt8(ini, "torch:flame_min", c.flameMin),
      flameMax := GetInt8(ini, "torch:flame_max", c.flameMax),
      rndSparkProb := GetInt8(ini, "torch:rnd_spark_prob", c.rndSparkProb),
      sparkMin := GetInt8(ini, "torch:spark_min", c.sparkMin),
      sparkMax := GetInt8(ini, "torch:spark_max", c.sparkMax),
      sparkTfr := GetInt8(ini, "torch:spark_tfr", c.sparkTfr),
      sparkCap := GetInt8(ini, "torch:spark_cap", c.sparkCap),
      upRad := GetInt8(ini, "torch:up_rad", c.upRad),
      sideRad := GetInt8(ini, "torch:side_rad", c.sideRad),
      heatCap := GetInt8(ini, "torch:heat_cap", c.heatCap),
      redBg := GetInt8(ini, "torch:red_bg", c.redBg),
      greenBg := GetInt8(ini, "torch:green_bg", c.greenBg),
      blueBg := GetInt8(ini, "torch:blue_bg", c.blueBg),
      redBias := GetInt8(ini, "torch:red_bias", c.redBias),
      greenBias := GetInt8(ini, "torch:green_bias", c.greenBias),
      blueBias := GetInt8(ini, "torch:blue_bias", c.blueBias),
      redEnergy := GetInt8(ini, "torch:red_energy", c.redEnergy),
      greenEnergy := GetInt8(ini, "torch:green_energy", c.greenEnergy),
      blueEnergy := GetInt8(ini, "torch:blue_energy", c.blueEnergy),
      upsideDown := GetInt(ini, "torch:upside_down", c.upsideDown),
      updateRate := GetInt(ini, "torch:update_rate", c.updateRate)
    )
  }

  /** The validation checks of `ini2conf`, in the order they are made. */
  datatype ConfigError =
    | MissingLedsPerLevel
    | MissingTorchLevels
    | MissingWoundCwise
    | MissingTorchChan
    | SparkProbOutOfRange
    | UpdateRateNotPositive
    | TextBaseLineTooHigh
  {
    /** Position of the check in the source. */
    function Rank(): nat
    {
      match this
      case MissingLedsPerLevel => 0
      case MissingTorchLevels => 1
      case MissingWoundCwise => 2
      case MissingTorchChan => 3
      case SparkProbOutOfRange => 4
      case UpdateRateNotPositive => 5
      case TextBaseLineTooHigh => 6
    }
  }

  /** Whether `c` passes the check that reports `e`; `rowsPerGlyph` is the font's glyph height. */
  predicate Passes(e: ConfigError, c: Config, rowsPerGlyph: int)
  {
    match e
    case MissingLedsPerLevel => c.ledsPerLevel != -1
    case MissingTorchLevels => c.torchLevels != -1
    case MissingWoundCwise => c.woundCwise != -1
    case MissingTorchChan => c.torchChan != -1
    case SparkProbOutOfRange => 0 <= c.rndSparkProb <= 100
    case UpdateRateNotPositive => c.updateRate > 0
    case TextBaseLineTooHigh => c.textBaseLine + rowsPerGlyph <= c.torchLevels
  }

  /** The configuration a successful `ini2conf` guarantees, stated as one conjunction. */
  predicate Acceptable(c: Config, rowsPerGlyph: int)
  {
    && c.ledsPerLevel != -1
    && c.torchLevels != -1
    && c.woundCwise != -1
    && c.torchChan != -1
    && c.rndSparkProb <= 100
    && c.updateRate > 0
    && c.textBaseLine + rowsPerGlyph <= c.torchLevels
  }

  /** The validation half of `ini2conf`: the first failing check, if any. */
  function Validate(c: Config, rowsPerGlyph: int): (r: Option<ConfigError>)
    ensures r.None? <==> Acceptable(c, rowsPerGlyph)
    ensures r.None? ==> forall e: ConfigError :: Passes(e, c, rowsPerGlyph)
    ensures r.Some? ==> !Passes(r.value, c, rowsPerGlyph)
    ensures r.Some? ==> forall e: ConfigError :: e.Rank() < r.value.Rank() ==> Passes(e, c, rowsPerGlyph)
  {
    if c.ledsPerLevel == -1 then Some(MissingLedsPerLevel)
    else if c.torchLevels == -1 then Some(MissingTorchLevels)
    else if c.woundCwise == -1 then Some(MissingWoundCwise)
    else if c.torchChan == -1 then Some(MissingTorchChan)
    else if c.rndSparkProb < 0 || c.rndSparkProb > 100 then Some(SparkProbOutOfRange)
    else if c.updateRate <= 0 then Some(UpdateRateNotPositive)
    else if c.textBaseLine + rowsPerGlyph > c.torchLevels then Some(TextBaseLineTooHigh)
    else None
  }

  /** `ini2conf`: load the keys over `c`, then validate; 0 on success, 1 on the first failed check. */
  function Ini2Conf(ini: Ini, c: Config, rowsPerGlyph: int): (r: (int, Config))
    ensures r.0 == 0 || r.0 == 1
    ensures r.0 == 0 <==> Acceptable(r.1, rowsPerGlyph)
    ensures r.1 == LoadIni(ini, c)
  {
    var loaded := LoadIni(ini, c);
    if Validate(loaded, rowsPerGlyph).None? then (0, loaded) else (1, loaded)
  }

  /** Starting from the defaults, `text_repeats` stays 0 after any INI file:
      no key sets it. */
  lemma TextRepeatsNeverSet(ini: Ini, rowsPerGlyph: int)
    ensures Ini2Conf(ini, DefaultConf(), rowsPerGlyph).1.textRepeats == 0
  {
  }

  /** An INI file without `leds_per_level` is rejected on that check first. */
  lemma MissingGeometryRejected(ini: Ini, rowsPerGlyph: int)
    requires "torch:leds_per_level" !in ini
    ensures Ini2Conf(ini, DefaultConf(), rowsPerGlyph).0 == 1
    ensures Validate(LoadIni(ini, DefaultConf()), rowsPerGlyph) == Some(MissingLedsPerLevel)
  {
    assert IniGet(ini, "torch:leds_per_level") == -1;
  }

  /** The validation accepts `text_cycles_per_px = 0`, the divisor of the
      text renderer's cross-fade. */
  lemma ZeroCyclesPerPixelAccepted()
    ensures var ini := map["torch:leds_per_level" := 11, "torch:torch_levels" := 21,
                           "torch:wound_cwise" := 0, "torch:torch_chan" := 1,
                           "torch:text_cycles_per_px" := 0];
            var r := Ini2Conf(ini, DefaultConf(), 7);
            r.0 == 0 && r.1.textCyclesPerPx == 0
  {
    var ini := map["torch:leds_per_level" := 11, "torch:torch_levels" := 21,
                   "torch:wound_cwise" := 0, "torch:torch_chan" := 1,
                   "torch:text_cycles_per_px" := 0];
    assert IniGet(ini, "torch:text_cycles_per_px") == 0;
    assert IniGet(ini, "torch:leds_per_level") == 11;
    assert IniGet(ini, "torch:torch_levels") == 21;
    assert IniGet(ini, "torch:wound_cwise") == 0;
    assert IniGet(ini, "torch:torch_chan") == 1;
    assert IniGet(ini, "torch:update_rate") == -1;
    assert IniGet(ini, "torch:rnd_spark_prob") == -1;
    assert IniGet(ini, "torch:text_base_line") == -1;
  }
}

=== FILE: control.dfy ===
/**
 The command-line side of the daemon (main.c): the line framing of client
 connections (`readfromsock`, `parseline`), the client list (`findsock`,
 `closesock`, and the insertion at accept time), and the `-l` and `-s`
 option checks. Sockets, `poll` and `read` are outside the model: the bytes a
 `read` returns (or its failure) are a parameter.
 */
module Control {
  import opened Bytes

  const Newline: byte := 10
  const CarriageReturn: byte := 13

  // ---------------------------------------------------------------------------
  // parseline

  /** `t = strchr(s, ch); if (t) *t = 0`: the part before the first `ch`. */
  function CutAt(s: seq<byte>, ch: byte): (r: seq<byte>)
    ensures r <= s && ch !in r
    ensures |r| < |s| ==> s[|r|] == ch
  {
    if |s| == 0 then []
    else if s[0] == ch then []
    else [s[0]] + CutAt(s[1..], ch)
  }

  /** The command of a received buffer: cut at the first newline, then at the
      first carriage return of what is left. */
  function CommandText(buf: seq<byte>): seq<byte>
  {
    CutAt(CutAt(buf, Newline), CarriageReturn)
  }

  /** Where the first line of `s` ends: the first newline or carriage return, or the end. */
  function LineEnd(s: seq<byte>): (k: nat)
    ensures k <= |s|
    ensures forall j :: 0 <= j < k ==> s[j] != Newline && s[j] != CarriageReturn
    ensures k < |s| ==> s[k] == Newline || s[k] == CarriageReturn
  {
    if |s| == 0 || s[0] == Newline || s[0] == CarriageReturn then 0 else 1 + LineEnd(s[1..])
  }

  /** The two cuts together keep exactly the bytes before the first line break
      of either kind. */
  lemma {:induction false} CommandIsFirstLine(buf: seq<byte>)
    ensures CommandText(buf) == buf[..LineEnd(buf)]
  {
    if |buf| > 0 && buf[0] != Newline && buf[0] != CarriageReturn {
      CommandIsFirstLine(buf[1..]);
      assert CutAt(buf, Newline) == [buf[0]] + CutAt(buf[1..], Newline);
      assert CutAt(CutAt(buf, Newline), CarriageReturn) == [buf[0]] + CommandText(buf[1..]);
      assert buf[..LineEnd(buf)] == [buf[0]] + buf[1..][..LineEnd(buf[1..])];
    }
  }

  /** `"quit"`. */
  const QuitCommand: seq<byte> := [113, 117, 105, 116]

  /** What `parseline` does with a command: set `doquit`, or hand the command
      to the torch once. */
  datatype LineAction = Quit | Command(text: seq<byte>)

  /** `parseline`. */
  function ParseLine(buf: seq<byte>): (r: LineAction)
    ensures r == Quit <==> buf[..LineEnd(buf)] == QuitCommand
    ensures r.Command? ==> r.text == buf[..LineEnd(buf)]
  {
    CommandIsFirstLine(buf);
    var cmd := CommandText(buf);
    if cmd == QuitCommand then Quit else Command(cmd)
  }

  /** Text after the first line break does not matter: "quit\r\n" and
      "quit\nxyz" both quit. */
  lemma QuitIgnoresRest(rest: seq<byte>, brk: byte)
    requires brk == Newline || brk == CarriageReturn
    ensures ParseLine(QuitCommand + [brk] + rest) == Quit
  {
    var s := QuitCommand + [brk] + rest;
    assert LineEnd(s) == 4 by {
      assert s[..4] == QuitCommand;
      assert LineEnd(s) == 1 + LineEnd(s[1..]);
      assert LineEnd(s[1..]) == 1 + LineEnd(s[2..]);
      assert LineEnd(s[2..]) == 1 + LineEnd(s[3..]);
      assert LineEnd(s[3..]) == 1 + LineEnd(s[4..]);
      assert s[4..][0] == brk;
    }
    assert s[..LineEnd(s)] == QuitCommand;
  }

  // ---------------------------------------------------------------------------
  // The client list

  /** `struct clentry`: descriptor, peer address text and the bytes received
      so far (`buf[0 .. amt-1]`; the rest of the 1024-byte buffer is zero). */
  datatype Client = Client(fd: int, addr: string, buf: seq<byte>)

  /** The `clients` list, head first, and the `numclients` counter. */
  datatype Registry = Registry(clients: seq<Client>, numClients: int)

  /** `findsock`: the position of the first entry with descriptor `fd`. */
  function FindSock(clients: seq<Client>, fd: int): (r: Option<nat>)
    ensures r.Some? ==> r.value < |clients| && clients[r.value].fd == fd &&
                        forall j :: 0 <= j < r.value ==> clients[j].fd != fd
    ensures r.None? <==> forall j :: 0 <= j < |clients| ==> clients[j].fd != fd
  {
    if |clients| == 0 then None
    else if clients[0].fd == fd then Some(0)
    else match FindSock(clients[1..], fd)
      case None => None
      case Some(k) => Some(k + 1)
  }

  /** `SLIST_INSERT_HEAD` plus `numclients++` after `accept`. */
  function AddClient(reg: Registry, cl: Client): (r: Registry)
    ensures r.clients == [cl] + reg.clients && r.numClients == reg.numClients + 1
  {
    Registry([cl] + reg.clients, reg.numClients + 1)
  }

  /** `closesock`: an unknown descriptor changes nothing; otherwise exactly the
      entry `findsock` returns is unlinked and the counter drops by one. */
  function CloseSock(reg: Registry, fd: int): (r: Registry)
    ensures FindSock(reg.clients, fd).None? ==> r == reg
    ensures FindSock(reg.clients, fd).Some? ==>
              var k := FindSock(reg.clients, fd).value;
              r.clients == reg.clients[..k] + reg.clients[k + 1..] && r.numClients == reg.numClients - 1
  {
    match FindSock(reg.clients, fd)
      case None => reg
      case Some(k) => Registry(reg.clients[..k] + reg.clients[k + 1..], reg.numClients - 1)
  }

  /** Closing the descriptor just accepted undoes the accept, whatever the
      list held before (the new entry is found first). */
  lemma CloseUndoesAdd(reg: Registry, cl: Client)
    ensures CloseSock(AddClient(reg, cl), cl.fd) == reg
  {
    assert FindSock(AddClient(reg, cl).clients, cl.fd) == Some(0);
    assert ([cl] + reg.clients)[1..] == reg.clients;
  }

  /** The counter matches the list when it did before. */
  lemma CloseKeepsCount(reg: Registry, fd: int)
    requires reg.numClients == |reg.clients|
    ensures CloseSock(reg, fd).numClients == |CloseSock(reg, fd).clients|
  {
  }

  // ---------------------------------------------------------------------------
  // readfromsock

  /** `sizeof(clp->buf) - 1`: the most a client may have pending. */
  const BufLimit := 1023

  /** No client buffer has reached the limit (a client that does is closed). */
  predicate BuffersBounded(reg: Registry)
  {
    forall j :: 0 <= j < |reg.clients| ==> |reg.clients[j].buf| < BufLimit
  }

  /** The C string in a client buffer: the received bytes up to the first NUL. */
  function BufString(buf: seq<byte>): seq<byte>
  {
    buf[..CStrLen(buf)]
  }

  /** The effect of one `readfromsock` call: the new list, and the line handed
      to `parseline` if one was. */
  datatype ReadEffect = ReadEffect(reg: Registry, parsed: Option<LineAction>)

  /** `readfromsock`. `incoming` is what `read` returned: `None` for an error,
      otherwise the bytes (at most the free space, as `read` is asked for).
      A failed read closes; reaching 1023 bytes closes as "Line too long" even
      when a newline came in, since that check comes first; a buffer whose C
      string holds a newline is parsed once and closed; anything else waits
      for more. */
  function ReadFromSock(reg: Registry, fd: int, incoming: Option<seq<byte>>): (r: ReadEffect)
    requires FindSock(reg.clients, fd).Some?
    requires incoming.Some? ==>
               |reg.clients[FindSock(reg.clients, fd).value].buf| + |incoming.value| <= BufLimit
    ensures BuffersBounded(reg) ==> BuffersBounded(r.reg)
    ensures r.parsed.Some? <==>
              incoming.Some? &&
              |reg.clients[FindSock(reg.clients, fd).value].buf| + |incoming.value| < BufLimit &&
              Newline in BufString(reg.clients[FindSock(reg.clients, fd).value].buf + incoming.value)
    ensures r.parsed.Some? ==>
              r.parsed.value == ParseLine(BufString(reg.clients[FindSock(reg.clients, fd).value].buf + incoming.value))
    ensures r.reg == CloseSock(reg, fd) || (r.parsed.None? && r.reg.numClients == reg.numClients)
    ensures incoming.None? ==> r == ReadEffect(CloseSock(reg, fd), None)
    ensures incoming.Some? && |reg.clients[FindSock(reg.clients, fd).value].buf| + |incoming.value| == BufLimit ==>
              r == ReadEffect(CloseSock(reg, fd), None)
    ensures r.parsed.Some? ==> r.reg == CloseSock(reg, fd)
    ensures incoming.Some? && r.parsed.None? &&
            |reg.clients[FindSock(reg.clients, fd).value].buf| + |incoming.value| < BufLimit ==>
              var k := FindSock(reg.clients, fd).value;
              r.reg == Registry(reg.clients[k := reg.clients[k].(buf := reg.clients[k].buf + incoming.value)],
                                reg.numClients)
  {
    var k := FindSock(reg.clients, fd).value;
    var cl := reg.clients[k];
    match incoming
      case None => ReadEffect(CloseSock(reg, fd), None)
      case Some(data) =>
        var buf := cl.buf + data;
        if |buf| == BufLimit then ReadEffect(CloseSock(reg, fd), None)
        else if Newline in BufString(buf) then ReadEffect(CloseSock(reg, fd), Some(ParseLine(BufString(buf))))
        else ReadEffect(Registry(reg.clients[k := cl.(buf := buf)], reg.numClients), None)
  }

  /** A buffer that reaches 1023 bytes is dropped unparsed, whether or not a
      newline came in with it. */
  lemma FullBufferDropsLine(reg: Registry, fd: int, data: seq<byte>)
    requires FindSock(reg.clients, fd).Some?
    requires |reg.clients[FindSock(reg.clients, fd).value].buf| + |data| == BufLimit
    ensures ReadFromSock(reg, fd, Some(data)) == ReadEffect(CloseSock(reg, fd), None)
  {
  }

  /** The first line to arrive, when nothing before it is pending, is parsed
      exactly as sent and the connection is closed. */
  lemma SingleLineParsed(reg: Registry, fd: int, line: seq<byte>)
    requires FindSock(reg.clients, fd).Some? && reg.clients[FindSock(reg.clients, fd).value].buf == []
    requires |line| + 1 < BufLimit
    requires 0 !in line && Newline !in line && CarriageReturn !in line
    ensures ReadFromSock(reg, fd, Some(line + [Newline])) ==
              ReadEffect(CloseSock(reg, fd), Some(if line == QuitCommand then Quit else Command(line)))
  {
    var buf := line + [Newline];
    assert reg.clients[FindSock(reg.clients, fd).value].buf + buf == buf;
    CStrLenNoNul(buf);
    assert BufString(buf) == buf;
    assert buf[|line|] == Newline;
    LineEndAt(buf, |line|);
    assert buf[..|line|] == line;
  }

  /** The first line break is where `LineEnd` says. */
  lemma LineEndAt(s: seq<byte>, k: nat)
    requires k < |s| && (s[k] == Newline || s[k] == CarriageReturn)
    requires forall j :: 0 <= j < k ==> s[j] != Newline && s[j] != CarriageReturn
    ensures LineEnd(s) == k
  {
  }

  // ---------------------------------------------------------------------------
  // Options

  /** `-l port`: the `atoi` result must be a TCP port, 1 to 65535. */
  function ListenPort(port: int): (r: Option<u16>)
    ensures r.Some? <==> 0 < port <= 65535
    ensures r.Some? ==> r.value == port
  {
    if port <= 0 || port > 65535 then None else Some(port)
  }

  /** `-s host:port` split at the first colon, or the NULL dereference when
      there is none. */
  datatype ServerArg = HostPort(host: string, port: string) | NullDereference

  /** The split of `-s` at `strchr(server, ':')`. */
  function SplitServer(server: string): (r: ServerArg)
    ensures r.HostPort? <==> ':' in server
    ensures r.HostPort? ==> ':' !in r.host && r.host + [':'] + r.port == server
  {
    if |server| == 0 then NullDereference
    else if server[0] == ':' then HostPort([], server[1..])
    else match SplitServer(server[1..])
      case NullDereference => NullDereference
      case HostPort(h, p) => HostPort([server[0]] + h, p)
  }

  /** Joining a colon-free host and any port and splitting again gives them back. */
  lemma SplitJoin(host: string, port: string)
    requires ':' !in host
    ensures SplitServer(host + [':'] + port) == HostPort(host, port)
  {
    var r := SplitServer(host + [':'] + port);
    assert r.HostPort?;
    SplitUnique(host + [':'] + port, r.host, r.port, host, port);
  }

  /** A colon-free host that is the shorter of two equal splits meets a colon inside the longer one. */
  lemma ColonAt(h1: string, p1: string, h2: string, p2: string)
    requires h1 + [':'] + p1 == h2 + [':'] + p2 && |h1| < |h2|
    ensures h2[|h1|] == ':'
  {
    assert (h1 + [':'] + p1)[|h1|] == ':';
    assert (h2 + [':'] + p2)[|h1|] == h2[|h1|];
  }

  /** A string has only one split at its first colon. */
  lemma SplitUnique(s: string, h1: string, p1: string, h2: string, p2: string)
    requires ':' !in h1 && ':' !in h2
    requires h1 + [':'] + p1 == s && h2 + [':'] + p2 == s
    ensures h1 == h2 && p1 == p2
  {
    if |h1| < |h2| {
      ColonAt(h1, p1, h2, p2);
      assert false;
    } else if |h2| < |h1| {
      ColonAt(h2, p2, h1, p1);
      assert false;
    } else {
      assert h1 == s[..|h1|] == h2;
      assert p1 == s[|h1| + 1..] == p2;
    }
  }
}

=== FILE: energy.dfy ===
/**
 The energy field of the torch (torch.c): a grid of `torch_levels` rows of
 `leds_per_level` cells stored row-major in flat byte arrays (`currentEnergy`,
 `nextEnergy`) plus a per-cell mode array. Row 0 is the bottom of the flame.

 `calcNextEnergy` visits the cells in index order and changes the MODE array
 in place while it goes, so a later cell sees the mode an earlier cell wrote.
 That pass is modelled twice: `Pass` is the reference fold over the cells,
 `CalcNextEnergy` is the array loop of the source, and lemmas about `Pass`
 state the per-cell rules.
 */
module Energy {
  import opened Bytes
  import opened TorchConfig

  /** `TORCH_PASSIVE`, `TORCH_NOP`, `TORCH_SPARK`, `TORCH_SPARK_TEMP`. */
  datatype Mode = Passive | Nop | Spark | SparkTemp

  /** `resetEnergy`: both energy buffers zero, every cell passive. */
  function ResetEnergy(n: nat): (r: (seq<byte>, seq<byte>, seq<Mode>))
    ensures |r.0| == n && |r.1| == n && |r.2| == n
    ensures forall i :: 0 <= i < n ==> r.0[i] == 0 && r.1[i] == 0 && r.2[i] == Passive
  {
    (seq(n, _ => 0), seq(n, _ => 0), seq(n, _ => Passive))
  }

  // ---------------------------------------------------------------------------
  // random16 and injectRandom

  /** The bounds `random16` actually uses: `aMax == 0` means "from 0 to aMinOrMax". */
  function RandomLow(aMinOrMax: u16, aMax: u16): u16 { if aMax == 0 then 0 else aMinOrMax }

  /** The upper bound of `random16`: `aMax`, or `aMinOrMax` when `aMax` is 0. */
  function RandomHigh(aMinOrMax: u16, aMax: u16): u16 { if aMax == 0 then aMinOrMax else aMax }

  /** The modulus of `rand() % aMax` is non-zero. The span is computed in
      `uint16_t`, so `flame_min == flame_max + 1` gives 0 and the modulo divides by zero. */
  predicate Random16Defined(aMinOrMax: u16, aMax: u16)
  {
    ToU16(RandomHigh(aMinOrMax, aMax) - RandomLow(aMinOrMax, aMax) + 1) != 0
  }

  /** For byte bounds the span is 0 exactly when `aMax != 0` and
      `aMinOrMax == aMax + 1`: both 0 gives a span of 1, and a larger gap
      wraps to a non-zero span. */
  lemma EmptySpan(aMinOrMax: byte, aMax: byte)
    ensures !Random16Defined(aMinOrMax, aMax) <==> aMax != 0 && aMinOrMax == aMax + 1
  {
  }

  /** `random16(aMinOrMax, aMax)`, with the value returned by its one `rand()`
      call supplied as `draw`. */
  function Random16(aMinOrMax: u16, aMax: u16, draw: nat): (r: u16)
    requires Random16Defined(aMinOrMax, aMax)
    ensures aMax != 0 && aMinOrMax <= aMax ==> aMinOrMax <= r <= aMax
    ensures aMax == 0 ==> r <= aMinOrMax
  {
    var lo := RandomLow(aMinOrMax, aMax);
    var span := ToU16(RandomHigh(aMinOrMax, aMax) - lo + 1);
    ToU16(lo + draw % span)
  }

  /** Every value of the range is produced by some draw. */
  lemma Random16Covers(aMinOrMax: u16, aMax: u16, v: u16)
    requires aMax != 0 && aMinOrMax <= v <= aMax
    requires Random16Defined(aMinOrMax, aMax)
    ensures Random16(aMinOrMax, aMax, v - aMinOrMax) == v
  {
    var span := aMax - aMinOrMax + 1;
    assert ToU16(span) == span by {
      assert span < 0x1_0000;
    }
    SmallMod(v - aMinOrMax, span);
  }

  /** Serves `Random16Covers`: a value below the modulus is its own remainder. */
  lemma SmallMod(a: int, m: int)
    requires 0 <= a < m
    ensures a % m == a
  {
  }

  /** The probability test of a second-row cell: `random16(100, 0) < rnd_spark_prob`. */
  predicate SparkFires(c: Config, draw: nat)
  {
    Random16(100, 0, draw) < c.rndSparkProb
  }

  /** Index of the oracle value that `injectRandom` consumes first for
      second-row cell `ledsPerLevel + k`: the bottom row takes one value per
      cell; a second-row cell already in SPARK takes none (the `&&` short-cuts),
      a failed test takes one, a successful test two. */
  function DrawPos(c: Config, modes: seq<Mode>, rnd: seq<nat>, k: nat): (p: nat)
    requires 0 <= c.ledsPerLevel && c.ledsPerLevel + k <= |modes|
    requires k <= c.ledsPerLevel && 3 * c.ledsPerLevel <= |rnd|
    ensures c.ledsPerLevel <= p <= c.ledsPerLevel + 2 * k
    decreases k
  {
    if k == 0 then c.ledsPerLevel
    else
      var p := DrawPos(c, modes, rnd, k - 1);
      if modes[c.ledsPerLevel + k - 1] == Spark then p
      else if SparkFires(c, rnd[p]) then p + 2
      else p + 1
  }

  /** Second-row cell `ledsPerLevel + k` is not a SPARK and its probability
      test fires, so it calls `random16(spark_min, spark_max)`. */
  predicate FiresAt(c: Config, modes: seq<Mode>, rnd: seq<nat>, k: int)
    requires 0 <= k < c.ledsPerLevel && c.ledsPerLevel + k < |modes| && 3 * c.ledsPerLevel <= |rnd|
  {
    modes[c.ledsPerLevel + k] != Spark && SparkFires(c, rnd[DrawPos(c, modes, rnd, k)])
  }

  /** One of the first `n` second-row cells calls `random16(spark_min, spark_max)`. */
  predicate FiresBefore(c: Config, modes: seq<Mode>, rnd: seq<nat>, n: int)
    requires 0 <= n <= c.ledsPerLevel && c.ledsPerLevel + n <= |modes| && 3 * c.ledsPerLevel <= |rnd|
  {
    exists k :: 0 <= k < n && FiresAt(c, modes, rnd, k)
  }

  /** The spark span is only used when a test fires (the `&&` short-cuts), so
      an empty span is harmless as long as no second-row test fires. */
  predicate SparkDrawsDefined(c: Config, modes: seq<Mode>, rnd: seq<nat>)
    requires 0 <= c.ledsPerLevel && 2 * c.ledsPerLevel <= |modes| && 3 * c.ledsPerLevel <= |rnd|
  {
    Random16Defined(c.sparkMin, c.sparkMax) || !FiresBefore(c, modes, rnd, c.ledsPerLevel)
  }

  /** Energy and mode of second-row cell `i` after `injectRandom`: a new
      spark when its test fires, otherwise the cell as it was. */
  function SparkCell(c: Config, cur: seq<byte>, modes: seq<Mode>, rnd: seq<nat>, i: int): (r: (byte, Mode))
    requires 0 <= c.ledsPerLevel && |cur| == |modes| && 2 * c.ledsPerLevel <= |modes|
    requires 3 * c.ledsPerLevel <= |rnd| && c.ledsPerLevel <= i < 2 * c.ledsPerLevel
    requires SparkDrawsDefined(c, modes, rnd)
    ensures r.1 == Spark || r == (cur[i], modes[i])
    ensures r != (cur[i], modes[i]) ==> FiresAt(c, modes, rnd, i - c.ledsPerLevel)
    ensures modes[i] == Spark ==> r == (cur[i], Spark)
    ensures c.rndSparkProb == 0 ==> r == (cur[i], modes[i])
    ensures c.sparkMax != 0 && c.sparkMin <= c.sparkMax && r.1 != modes[i] ==> c.sparkMin <= r.0 <= c.sparkMax
  {
    var p := DrawPos(c, modes, rnd, i - c.ledsPerLevel);
    if modes[i] != Spark && SparkFires(c, rnd[p]) then
      assert FiresAt(c, modes, rnd, i - c.ledsPerLevel);
      (ToByte(Random16(c.sparkMin, c.sparkMax, rnd[p + 1])), Spark)
    else
      (cur[i], modes[i])
  }

  /** The bottom-row loop of `injectRandom`: cell `i` takes the `i`-th draw and becomes NOP. */
  method FlameRow(c: Config, cur: seq<byte>, modes: seq<Mode>, rnd: seq<nat>)
    returns (cur': seq<byte>, modes': seq<Mode>)
    requires 0 <= c.ledsPerLevel && |modes| == |cur| && c.ledsPerLevel <= |cur|
    requires c.ledsPerLevel <= |rnd|
    requires Random16Defined(c.flameMin, c.flameMax)
    ensures |cur'| == |cur| && |modes'| == |modes|
    ensures forall i :: 0 <= i < c.ledsPerLevel ==>
              cur'[i] == ToByte(Random16(c.flameMin, c.flameMax, rnd[i])) && modes'[i] == Nop
    ensures forall i :: c.ledsPerLevel <= i < |cur| ==> cur'[i] == cur[i] && modes'[i] == modes[i]
  {
    cur', modes' := cur, modes;
    var i := 0;
    while i < c.ledsPerLevel
      invariant 0 <= i <= c.ledsPerLevel
      invariant |cur'| == |cur| && |modes'| == |modes|
      invariant forall j :: 0 <= j < i ==>
                  cur'[j] == ToByte(Random16(c.flameMin, c.flameMax, rnd[j])) && modes'[j] == Nop
      invariant forall j :: i <= j < |cur| ==> cur'[j] == cur[j] && modes'[j] == modes[j]
    {
      cur' := cur'[i := ToByte(Random16(c.flameMin, c.flameMax, rnd[i]))];
      modes' := modes'[i := Nop];
      i := i + 1;
    }
  }

  /** The second-row loop of `injectRandom`, reading the modes of `modes0`
      (the bottom-row loop does not touch the second row). */
  method SparkRow(c: Config, cur: seq<byte>, modes: seq<Mode>, modes0: seq<Mode>, rnd: seq<nat>)
    returns (cur': seq<byte>, modes': seq<Mode>, used: nat)
    requires 0 <= c.ledsPerLevel && |modes| == |cur| && |modes0| == |cur| && 2 * c.ledsPerLevel <= |cur|
    requires 3 * c.ledsPerLevel <= |rnd|
    requires SparkDrawsDefined(c, modes0, rnd)
    ensures |cur'| == |cur| && |modes'| == |modes|
    ensures forall i :: c.ledsPerLevel <= i < 2 * c.ledsPerLevel ==> (cur'[i], modes'[i]) == SparkCell(c, cur, modes0, rnd, i)
    ensures forall i :: 0 <= i < |cur| && !(c.ledsPerLevel <= i < 2 * c.ledsPerLevel) ==>
              cur'[i] == cur[i] && modes'[i] == modes[i]
    ensures used == DrawPos(c, modes0, rnd, c.ledsPerLevel)
  {
    var lpl := c.ledsPerLevel;
    cur', modes' := cur, modes;
    var i := lpl;
    var p := lpl;
    while i < 2 * lpl
      invariant lpl <= i <= 2 * lpl
      invariant |cur'| == |cur| && |modes'| == |modes|
      invariant p == DrawPos(c, modes0, rnd, i - lpl)
      invariant SparkRowUpTo(c, cur, modes, modes0, rnd, cur', modes', i)
    {
      var e, m;
      e, m, p := SparkStep(c, cur, modes0, rnd, i, p);
      SparkRowExtends(c, cur, modes, modes0, rnd, cur', modes', i, e, m);
      cur' := cur'[i := e];
      modes' := modes'[i := m];
      i := i + 1;
    }
    used := p;
  }

  /** The second-row loop's account after cells `lpl .. i-1`: those follow
      the spark rule, every other cell is as it was. */
  predicate SparkRowUpTo(c: Config, cur: seq<byte>, modes: seq<Mode>, modes0: seq<Mode>, rnd: seq<nat>,
                         cur': seq<byte>, modes': seq<Mode>, i: int)
    requires 0 <= c.ledsPerLevel && |modes| == |cur| && |modes0| == |cur| && 2 * c.ledsPerLevel <= |cur|
    requires 3 * c.ledsPerLevel <= |rnd| && SparkDrawsDefined(c, modes0, rnd)
    requires i <= 2 * c.ledsPerLevel && |cur'| == |cur| && |modes'| == |modes|
  {
    (forall j :: c.ledsPerLevel <= j < i ==> (cur'[j], modes'[j]) == SparkCell(c, cur, modes0, rnd, j)) &&
    (forall j :: 0 <= j < |cur| && !(c.ledsPerLevel <= j < i) ==> cur'[j] == cur[j] && modes'[j] == modes[j])
  }

  /** Writing cell `i` of the second row keeps the loop's account of the
      cells before it and of the cells it has not reached. */
  lemma SparkRowExtends(c: Config, cur: seq<byte>, modes: seq<Mode>, modes0: seq<Mode>, rnd: seq<nat>,
                        cur': seq<byte>, modes': seq<Mode>, i: int, e: byte, m: Mode)
    requires 0 <= c.ledsPerLevel && |modes| == |cur| && |modes0| == |cur| && 2 * c.ledsPerLevel <= |cur|
    requires 3 * c.ledsPerLevel <= |rnd| && SparkDrawsDefined(c, modes0, rnd)
    requires c.ledsPerLevel <= i < 2 * c.ledsPerLevel && |cur'| == |cur| && |modes'| == |modes|
    requires SparkRowUpTo(c, cur, modes, modes0, rnd, cur', modes', i)
    requires (e, m) == SparkCell(c, cur, modes0, rnd, i)
    ensures SparkRowUpTo(c, cur, modes, modes0, rnd, cur'[i := e], modes'[i := m], i + 1)
  {
  }

  /** One iteration of the second-row loop: cell `i`, whose draws start at
      oracle position `p`, tests for a spark unless it already is one. */
  method SparkStep(c: Config, cur: seq<byte>, modes0: seq<Mode>, rnd: seq<nat>, i: int, p: nat)
    returns (e: byte, m: Mode, p': nat)
    requires 0 <= c.ledsPerLevel && |modes0| == |cur| && 2 * c.ledsPerLevel <= |cur|
    requires 3 * c.ledsPerLevel <= |rnd| && c.ledsPerLevel <= i < 2 * c.ledsPerLevel
    requires SparkDrawsDefined(c, modes0, rnd)
    requires p == DrawPos(c, modes0, rnd, i - c.ledsPerLevel)
    ensures (e, m) == SparkCell(c, cur, modes0, rnd, i)
    ensures p' == DrawPos(c, modes0, rnd, i + 1 - c.ledsPerLevel)
  {
    e, m, p' := cur[i], modes0[i], p;
    if modes0[i] != Spark {
      if Random16(100, 0, rnd[p]) < c.rndSparkProb {
        assert FiresAt(c, modes0, rnd, i - c.ledsPerLevel);
        e, m := ToByte(Random16(c.sparkMin, c.sparkMax, rnd[p + 1])), Spark;
        p' := p + 2;
      } else {
        p' := p + 1;
      }
    }
  }

  /** `injectRandom`: fresh flame energy on the bottom row, random sparks on
      the second row. `rnd` is the sequence of values `rand()` returns; `used`
      is how many of them were consumed. */
  method InjectRandom(c: Config, cur: seq<byte>, modes: seq<Mode>, rnd: seq<nat>)
    returns (cur': seq<byte>, modes': seq<Mode>, used: nat)
    requires 0 <= c.ledsPerLevel && |modes| == |cur| && 2 * c.ledsPerLevel <= |cur|
    requires 3 * c.ledsPerLevel <= |rnd|
    requires Random16Defined(c.flameMin, c.flameMax) && SparkDrawsDefined(c, modes, rnd)
    ensures |cur'| == |cur| && |modes'| == |modes|
    ensures forall i :: 0 <= i < c.ledsPerLevel ==>
              cur'[i] == ToByte(Random16(c.flameMin, c.flameMax, rnd[i])) && modes'[i] == Nop
    ensures c.flameMax != 0 && c.flameMin <= c.flameMax ==>
              forall i :: 0 <= i < c.ledsPerLevel ==> c.flameMin <= cur'[i] <= c.flameMax
    ensures forall i :: c.ledsPerLevel <= i < 2 * c.ledsPerLevel && modes[i] == Spark ==>
              cur'[i] == cur[i] && modes'[i] == Spark
    ensures c.sparkMax != 0 && c.sparkMin <= c.sparkMax ==>
              forall i :: c.ledsPerLevel <= i < 2 * c.ledsPerLevel && modes'[i] != modes[i] ==>
                modes'[i] == Spark && c.sparkMin <= cur'[i] <= c.sparkMax
    ensures forall i :: 2 * c.ledsPerLevel <= i < |cur| ==> cur'[i] == cur[i] && modes'[i] == modes[i]
    ensures used == DrawPos(c, modes, rnd, c.ledsPerLevel)
    ensures (cur', modes') == Injected(c, cur, modes, rnd)
  {
    // random flame energy at the bottom row
    var cur1, modes1 := FlameRow(c, cur, modes, rnd);
    // random sparks at the second row
    cur', modes', used := SparkRow(c, cur1, modes1, modes, rnd);
    RowsAreInjected(c, cur, modes, rnd, cur1, modes1, cur', modes');
    InjectedRows(c, cur, modes, rnd);
  }

  /** What the injected buffers hold row by row: flame draws within the flame
      span on the bottom row; on the second row, SPARK cells untouched and new
      sparks within the spark span. */
  lemma InjectedRows(c: Config, cur: seq<byte>, modes: seq<Mode>, rnd: seq<nat>)
    requires 0 <= c.ledsPerLevel && |modes| == |cur| && 2 * c.ledsPerLevel <= |cur| && 3 * c.ledsPerLevel <= |rnd|
    requires Random16Defined(c.flameMin, c.flameMax) && SparkDrawsDefined(c, modes, rnd)
    ensures var r := Injected(c, cur, modes, rnd);
            forall i :: 0 <= i < c.ledsPerLevel ==>
              r.0[i] == ToByte(Random16(c.flameMin, c.flameMax, rnd[i])) && r.1[i] == Nop
    ensures var r := Injected(c, cur, modes, rnd);
            c.flameMax != 0 && c.flameMin <= c.flameMax ==>
              forall i :: 0 <= i < c.ledsPerLevel ==> c.flameMin <= r.0[i] <= c.flameMax
    ensures var r := Injected(c, cur, modes, rnd);
            forall i :: c.ledsPerLevel <= i < 2 * c.ledsPerLevel && modes[i] == Spark ==>
              r.0[i] == cur[i] && r.1[i] == Spark
    ensures var r := Injected(c, cur, modes, rnd);
            c.sparkMax != 0 && c.sparkMin <= c.sparkMax ==>
              forall i :: c.ledsPerLevel <= i < 2 * c.ledsPerLevel && r.1[i] != modes[i] ==>
                r.1[i] == Spark && c.sparkMin <= r.0[i] <= c.sparkMax
  {
    var r := Injected(c, cur, modes, rnd);
    forall i | 0 <= i < c.ledsPerLevel
      ensures r.0[i] == ToByte(Random16(c.flameMin, c.flameMax, rnd[i])) && r.1[i] == Nop
    {
      assert (r.0[i], r.1[i]) == InjectedCell(c, cur, modes, rnd, i);
    }
    forall i | c.ledsPerLevel <= i < 2 * c.ledsPerLevel
      ensures (r.0[i], r.1[i]) == SparkCell(c, cur, modes, rnd, i)
    {
      assert (r.0[i], r.1[i]) == InjectedCell(c, cur, modes, rnd, i);
    }
  }

  /** The two loops of `injectRandom` together leave exactly the injected buffers. */
  lemma RowsAreInjected(c: Config, cur: seq<byte>, modes: seq<Mode>, rnd: seq<nat>,
                        cur1: seq<byte>, modes1: seq<Mode>, cur': seq<byte>, modes': seq<Mode>)
    requires 0 <= c.ledsPerLevel && |modes| == |cur| && 2 * c.ledsPerLevel <= |cur| && 3 * c.ledsPerLevel <= |rnd|
    requires Random16Defined(c.flameMin, c.flameMax) && SparkDrawsDefined(c, modes, rnd)
    requires |cur1| == |cur| && |modes1| == |cur| && |cur'| == |cur| && |modes'| == |cur|
    requires forall i :: 0 <= i < c.ledsPerLevel ==>
               cur1[i] == ToByte(Random16(c.flameMin, c.flameMax, rnd[i])) && modes1[i] == Nop
    requires forall i :: c.ledsPerLevel <= i < |cur| ==> cur1[i] == cur[i] && modes1[i] == modes[i]
    requires forall i :: c.ledsPerLevel <= i < 2 * c.ledsPerLevel ==> (cur'[i], modes'[i]) == SparkCell(c, cur1, modes, rnd, i)
    requires forall i :: 0 <= i < |cur| && !(c.ledsPerLevel <= i < 2 * c.ledsPerLevel) ==>
               cur'[i] == cur1[i] && modes'[i] == modes1[i]
    ensures forall i :: 0 <= i < |cur| ==> (cur'[i], modes'[i]) == InjectedCell(c, cur, modes, rnd, i)
    ensures (cur', modes') == Injected(c, cur, modes, rnd)
  {
    forall i | 0 <= i < |cur|
      ensures (cur'[i], modes'[i]) == InjectedCell(c, cur, modes, rnd, i)
    {
      if c.ledsPerLevel <= i < 2 * c.ledsPerLevel {
        assert SparkCell(c, cur1, modes, rnd, i) == SparkCell(c, cur, modes, rnd, i);
      }
    }
    InjectedEqual(c, cur, modes, rnd, cur', modes');
  }

  /** Cell `i` after `injectRandom`, as a closed form: flame draws and NOP on
      the bottom row, the spark rule on the second row, the rest untouched. */
  function InjectedCell(c: Config, cur: seq<byte>, modes: seq<Mode>, rnd: seq<nat>, i: int): (r: (byte, Mode))
    requires 0 <= c.ledsPerLevel && |modes| == |cur| && 2 * c.ledsPerLevel <= |cur| && 3 * c.ledsPerLevel <= |rnd|
    requires Random16Defined(c.flameMin, c.flameMax) && SparkDrawsDefined(c, modes, rnd)
    requires 0 <= i < |cur|
    ensures i < c.ledsPerLevel ==> r.1 == Nop
    ensures 2 * c.ledsPerLevel <= i ==> r == (cur[i], modes[i])
  {
    if i < c.ledsPerLevel then (ToByte(Random16(c.flameMin, c.flameMax, rnd[i])), Nop)
    else if i < 2 * c.ledsPerLevel then SparkCell(c, cur, modes, rnd, i)
    else (cur[i], modes[i])
  }

  /** The energy and mode buffers `injectRandom` leaves, ready for the pass. */
  function Injected(c: Config, cur: seq<byte>, modes: seq<Mode>, rnd: seq<nat>): (r: (seq<byte>, seq<Mode>))
    requires 0 <= c.ledsPerLevel && |modes| == |cur| && 2 * c.ledsPerLevel <= |cur| && 3 * c.ledsPerLevel <= |rnd|
    requires Random16Defined(c.flameMin, c.flameMax) && SparkDrawsDefined(c, modes, rnd)
    ensures |r.0| == |cur| && |r.1| == |cur|
    ensures BottomRowReady(c, r.1)
    ensures forall i :: 2 * c.ledsPerLevel <= i < |cur| ==> r.0[i] == cur[i] && r.1[i] == modes[i]
  {
    (seq(|cur|, i requires 0 <= i < |cur| => InjectedCell(c, cur, modes, rnd, i).0),
     seq(|cur|, i requires 0 <= i < |cur| => InjectedCell(c, cur, modes, rnd, i).1))
  }

  /** Buffers that agree with `InjectedCell` everywhere are the injected buffers. */
  lemma InjectedEqual(c: Config, cur: seq<byte>, modes: seq<Mode>, rnd: seq<nat>, cur': seq<byte>, modes': seq<Mode>)
    requires 0 <= c.ledsPerLevel && |modes| == |cur| && 2 * c.ledsPerLevel <= |cur| && 3 * c.ledsPerLevel <= |rnd|
    requires Random16Defined(c.flameMin, c.flameMax) && SparkDrawsDefined(c, modes, rnd)
    requires |cur'| == |cur| && |modes'| == |cur|
    requires forall i :: 0 <= i < |cur| ==> (cur'[i], modes'[i]) == InjectedCell(c, cur, modes, rnd, i)
    ensures (cur', modes') == Injected(c, cur, modes, rnd)
  {
    var inj := Injected(c, cur, modes, rnd);
    assert cur' == inj.0;
    assert modes' == inj.1;
  }

  // ---------------------------------------------------------------------------
  // calcNextEnergy

  /** The bottom row may not be PASSIVE or SPARK_TEMP when the pass starts:
      those modes read the cell at `i - leds_per_level` (and `i - 1`), which
      for row 0 lies before the array. `injectRandom` sets the row to NOP just
      before the pass. */
  predicate BottomRowReady(c: Config, modes: seq<Mode>)
  {
    forall j :: 0 <= j < c.ledsPerLevel && j < |modes| ==> modes[j] == Nop || modes[j] == Spark
  }

  /** The passive rule: retained heat `(e * heat_cap) >> 8` plus radiation
      from the flat-array neighbours `i - 1`, `i + 1` and the cell below.
      The radiation sum reaches `sat8add` through its `uint8_t` parameter, so it
      is reduced modulo 256 before the saturating add. */
  function PassiveEnergy(c: Config, e: byte, left: byte, right: byte, below: byte): (r: byte)
    ensures (e * c.heatCap) / 256 <= r
    ensures left == 0 && right == 0 && below == 0 ==> r == (e * c.heatCap) / 256 <= e
  {
    ByteProduct(e, c.heatCap);
    Sat8Add((e * c.heatCap) / 256, ToByte(((left + right) * c.sideRad) / 512 + (below * c.upRad) / 256))
  }

  /** A SPARK_TEMP cell whose supporting cell is exhausted gobbles it up and
      keeps `spark_cap / 256` of the sum. */
  function GobbledEnergy(c: Config, e: byte, below: byte): (r: byte)
    ensures r <= Sat8Add(e, below) && r <= c.sparkCap
    ensures c.sparkCap == 0 ==> r == 0
  {
    ByteProduct(Sat8Add(e, below), c.sparkCap);
    (Sat8Add(e, below) * c.sparkCap) / 256
  }

  /** One visit of `calcNextEnergy`: the byte written to `nextEnergy[i]` and
      the mode array afterwards, given the modes as they stand at the visit.
      Energies are read from `cur`, the pre-pass `currentEnergy`; the one read
      past the end (`i + 1` for the last cell) yields `stray`. The test
      `i + leds_per_level < |cur|` is the source's `y < torch_levels - 1`
      (see `GridIndex`). */
  function VisitCell(c: Config, cur: seq<byte>, modes: seq<Mode>, i: int, stray: byte): (r: (byte, seq<Mode>))
    requires c.ledsPerLevel >= 1 && |modes| == |cur| && 0 <= i < |cur|
    requires (modes[i] == Passive || modes[i] == SparkTemp) ==> i >= c.ledsPerLevel
    ensures |r.1| == |modes|
    ensures forall j :: 0 <= j < |modes| && j != i && j != i + c.ledsPerLevel && j != i - c.ledsPerLevel ==>
              r.1[j] == modes[j]
  {
    var lpl := c.ledsPerLevel;
    var e := cur[i];
    match modes[i]
    case Spark =>
      (Sat8Sub(e, c.sparkTfr), if i + lpl < |cur| then modes[i + lpl := SparkTemp] else modes)
    case SparkTemp =>
      var below := cur[i - lpl];
      if below < c.sparkTfr then
        (GobbledEnergy(c, e, below), modes[i - lpl := Passive][i := Spark])
      else
        (Sat8Add(e, c.sparkTfr), modes)
    case Passive =>
      (PassiveEnergy(c, e, cur[i - 1], ReadAt(cur, i + 1, stray), cur[i - lpl]), modes)
    case Nop =>
      (e, modes)
  }

  /** Reference fold: the first `k` bytes of `nextEnergy` and the mode array
      after visiting cells `0 .. k-1` in order. */
  function Pass(c: Config, cur: seq<byte>, modes0: seq<Mode>, k: int, stray: byte): (r: (seq<byte>, seq<Mode>))
    requires c.ledsPerLevel >= 1 && |modes0| == |cur| && 0 <= k <= |cur|
    requires BottomRowReady(c, modes0)
    ensures |r.0| == k && |r.1| == |cur|
    ensures forall j :: k <= j < |cur| && j < c.ledsPerLevel ==> r.1[j] == modes0[j]
    decreases k
  {
    if k == 0 then ([], modes0)
    else
      var before := Pass(c, cur, modes0, k - 1, stray);
      var visit := VisitCell(c, cur, before.1, k - 1, stray);
      (before.0 + [visit.0], visit.1)
  }

  /** The mode cell `i` holds when the pass reaches it. */
  function VisitMode(c: Config, cur: seq<byte>, modes0: seq<Mode>, i: int, stray: byte): Mode
    requires c.ledsPerLevel >= 1 && |modes0| == |cur| && 0 <= i < |cur|
    requires BottomRowReady(c, modes0)
  {
    Pass(c, cur, modes0, i, stray).1[i]
  }

  /** Bytes already written are never rewritten later in the pass. */
  lemma {:induction false} PassPrefix(c: Config, cur: seq<byte>, modes0: seq<Mode>, k: int, k': int, stray: byte)
    requires c.ledsPerLevel >= 1 && |modes0| == |cur| && 0 <= k <= k' <= |cur|
    requires BottomRowReady(c, modes0)
    ensures Pass(c, cur, modes0, k', stray).0[..k] == Pass(c, cur, modes0, k, stray).0
    decreases k' - k
  {
    if k < k' {
      PassPrefix(c, cur, modes0, k, k' - 1, stray);
      var shorter := Pass(c, cur, modes0, k' - 1, stray).0;
      assert Pass(c, cur, modes0, k', stray).0[..k' - 1] == shorter;
      assert Pass(c, cur, modes0, k', stray).0[..k] == shorter[..k];
    }
  }

  /** A cell's mode is not touched by visits that are more than a row after
      it, nor by the visits of the row before it reaches it. */
  lemma {:induction false} ModeUntouched(c: Config, cur: seq<byte>, modes0: seq<Mode>, cell: int, a: int, b: int, stray: byte)
    requires c.ledsPerLevel >= 1 && |modes0| == |cur| && 0 <= a <= b <= |cur| && 0 <= cell < |cur|
    requires BottomRowReady(c, modes0)
    requires cell + c.ledsPerLevel < a || (cell - c.ledsPerLevel < a && b <= cell)
    ensures Pass(c, cur, modes0, b, stray).1[cell] == Pass(c, cur, modes0, a, stray).1[cell]
    decreases b - a
  {
    if a < b {
      ModeUntouched(c, cur, modes0, cell, a, b - 1, stray);
    }
  }

  /** The byte the whole pass leaves in `nextEnergy[i]` is the one the visit of `i` wrote. */
  lemma NextIsVisitEnergy(c: Config, cur: seq<byte>, modes0: seq<Mode>, i: int, stray: byte)
    requires c.ledsPerLevel >= 1 && |modes0| == |cur| && 0 <= i < |cur|
    requires BottomRowReady(c, modes0)
    ensures Pass(c, cur, modes0, |cur|, stray).0[i]
         == VisitCell(c, cur, Pass(c, cur, modes0, i, stray).1, i, stray).0
  {
    PassPrefix(c, cur, modes0, i + 1, |cur|, stray);
    assert Pass(c, cur, modes0, |cur|, stray).0[i] == Pass(c, cur, modes0, i + 1, stray).0[i];
  }

  /** The energy rule of `calcNextEnergy`, cell by cell, by the mode the cell
      has when visited: NOP carries its energy, SPARK loses `spark_tfr`,
      SPARK_TEMP gobbles an exhausted supporting cell or gains `spark_tfr`,
      PASSIVE keeps heat and takes radiation from its flat neighbours. */
  lemma EnergyRule(c: Config, cur: seq<byte>, modes0: seq<Mode>, i: int, stray: byte)
    requires c.ledsPerLevel >= 1 && |modes0| == |cur| && 0 <= i < |cur|
    requires BottomRowReady(c, modes0)
    ensures var next := Pass(c, cur, modes0, |cur|, stray).0;
            var lpl := c.ledsPerLevel;
            match VisitMode(c, cur, modes0, i, stray)
            case Nop => next[i] == cur[i]
            case Spark => next[i] == Sat8Sub(cur[i], c.sparkTfr)
            case SparkTemp =>
              i >= lpl &&
              next[i] == (if cur[i - lpl] < c.sparkTfr then GobbledEnergy(c, cur[i], cur[i - lpl])
                          else Sat8Add(cur[i], c.sparkTfr))
            case Passive =>
              i >= lpl &&
              next[i] == PassiveEnergy(c, cur[i], cur[i - 1], ReadAt(cur, i + 1, stray), cur[i - lpl])
  {
    NextIsVisitEnergy(c, cur, modes0, i, stray);
  }

  /** A SPARK cell below the top row marks the cell directly above as
      SPARK_TEMP, and that cell still has this mode when the pass reaches it
      in the same pass. */
  lemma SparkMarksCellAbove(c: Config, cur: seq<byte>, modes0: seq<Mode>, i: int, stray: byte)
    requires c.ledsPerLevel >= 1 && |modes0| == |cur| && 0 <= i < |cur|
    requires BottomRowReady(c, modes0)
    requires VisitMode(c, cur, modes0, i, stray) == Spark
    requires i + c.ledsPerLevel < |cur|
    ensures VisitMode(c, cur, modes0, i + c.ledsPerLevel, stray) == SparkTemp
  {
    var lpl := c.ledsPerLevel;
    assert Pass(c, cur, modes0, i + 1, stray).1[i + lpl] == SparkTemp;
    ModeUntouched(c, cur, modes0, i + lpl, i + 1, i + lpl, stray);
  }

  /** A SPARK_TEMP cell whose supporting cell had less than `spark_tfr`
      before the pass becomes SPARK, and the supporting cell ends the pass
      PASSIVE; otherwise the cell stays SPARK_TEMP. */
  lemma SparkTempHandOff(c: Config, cur: seq<byte>, modes0: seq<Mode>, i: int, stray: byte)
    requires c.ledsPerLevel >= 1 && |modes0| == |cur| && 0 <= i < |cur|
    requires BottomRowReady(c, modes0)
    requires VisitMode(c, cur, modes0, i, stray) == SparkTemp
    ensures i >= c.ledsPerLevel
    ensures cur[i - c.ledsPerLevel] < c.sparkTfr ==>
              Pass(c, cur, modes0, i + 1, stray).1[i] == Spark &&
              Pass(c, cur, modes0, |cur|, stray).1[i - c.ledsPerLevel] == Passive
    ensures cur[i - c.ledsPerLevel] >= c.sparkTfr ==>
              Pass(c, cur, modes0, i + 1, stray).1[i] == SparkTemp
  {
    var lpl := c.ledsPerLevel;
    if cur[i - lpl] < c.sparkTfr {
      assert Pass(c, cur, modes0, i + 1, stray).1[i - lpl] == Passive;
      ModeUntouched(c, cur, modes0, i - lpl, i + 1, |cur|, stray);
    }
  }

  /** Geometry of the nested loops: cell `(y, x)` is `y * lpl + x`, it lies
      in the grid, and `y < levels - 1` holds exactly when the cell above exists. */
  lemma GridIndex(lpl: int, levels: int, y: int, x: int)
    requires lpl >= 1 && 0 <= y < levels && 0 <= x < lpl
    ensures y * lpl + x < lpl * levels
    ensures (y + 1) * lpl == y * lpl + lpl
    ensures y < levels - 1 <==> y * lpl + x + lpl < lpl * levels
  {
    MulMonotone(lpl, y + 1, levels);
    assert (y + 1) * lpl == y * lpl + lpl;
    if y < levels - 1 {
      MulMonotone(lpl, y + 2, levels);
      assert (y + 2) * lpl == y * lpl + lpl + lpl;
    } else {
      assert y + 1 == levels;
      assert lpl * levels == y * lpl + lpl;
    }
  }

  /** A grid with a positive row length and a non-negative cell count has a
      non-negative number of rows. */
  lemma LevelsNonNegative(lpl: int, levels: int)
    requires lpl >= 1 && lpl * levels >= 0
    ensures levels >= 0
  {
    if levels < 0 {
      MulMonotone(-levels, 1, lpl);
    }
  }

  /** The body of `calcNextEnergy` for cell `i`: the mode switch, with the
      in-place writes to the mode array `m`. `belowTop` is `y < torch_levels - 1`. */
  method VisitStep(c: Config, cur: seq<byte>, m: array<Mode>, i: int, belowTop: bool, stray: byte)
    returns (e: byte)
    requires c.ledsPerLevel >= 1 && m.Length == |cur| && 0 <= i < |cur|
    requires (m[i] == Passive || m[i] == SparkTemp) ==> i >= c.ledsPerLevel
    requires belowTop <==> i + c.ledsPerLevel < |cur|
    modifies m
    ensures (e, m[..]) == VisitCell(c, cur, old(m[..]), i, stray)
  {
    var lpl := c.ledsPerLevel;
    e := cur[i];
    match m[i] {
      case Spark =>
        // lose the transfer energy; the cell above becomes a temporary spark
        e := Sat8Sub(e, c.sparkTfr);
        if belowTop {
          m[i + lpl] := SparkTemp;
        }
      case SparkTemp =>
        // take energy from the cell below until it is exhausted
        var below := cur[i - lpl];
        if below < c.sparkTfr {
          m[i - lpl] := Passive;
          e := GobbledEnergy(c, e, below);
          m[i] := Spark;
        } else {
          e := Sat8Add(e, c.sparkTfr);
        }
      case Passive =>
        e := PassiveEnergy(c, e, cur[i - 1], ReadAt(cur, i + 1, stray), cur[i - lpl]);
      case Nop =>
    }
  }

  /** One row of `calcNextEnergy`: the inner loop over the columns of row `y`. */
  method CalcRow(c: Config, cur: seq<byte>, modes: seq<Mode>, m: array<Mode>, nx: array<byte>, y: int, stray: byte)
    requires c.ledsPerLevel >= 1 && |cur| == c.ledsPerLevel * c.torchLevels
    requires |modes| == |cur| && BottomRowReady(c, modes)
    requires 0 <= y < c.torchLevels
    requires m.Length == |cur| && nx.Length == |cur|
    requires y * c.ledsPerLevel + c.ledsPerLevel <= |cur|
    requires nx[..y * c.ledsPerLevel] == Pass(c, cur, modes, y * c.ledsPerLevel, stray).0
    requires m[..] == Pass(c, cur, modes, y * c.ledsPerLevel, stray).1
    modifies m, nx
    ensures nx[..y * c.ledsPerLevel + c.ledsPerLevel] == Pass(c, cur, modes, y * c.ledsPerLevel + c.ledsPerLevel, stray).0
    ensures m[..] == Pass(c, cur, modes, y * c.ledsPerLevel + c.ledsPerLevel, stray).1
  {
    var lpl := c.ledsPerLevel;
    var i := y * lpl;
    var x := 0;
    while x < lpl
      invariant 0 <= x <= lpl
      invariant i == y * lpl + x
      invariant nx[..i] == Pass(c, cur, modes, i, stray).0
      invariant m[..] == Pass(c, cur, modes, i, stray).1
    {
      GridIndex(lpl, c.torchLevels, y, x);
      assert i < lpl ==> m[i] == modes[i];
      var e := VisitStep(c, cur, m, i, y < c.torchLevels - 1, stray);
      nx[i] := e;
      assert nx[..i + 1] == nx[..i] + [e];
      i := i + 1;
      x := x + 1;
    }
  }

  /** `calcNextEnergy`: nested loops over rows (bottom first) and columns,
      writing `nextEnergy` and changing modes in place. `cur` is only read. */
  method CalcNextEnergy(c: Config, cur: seq<byte>, modes: seq<Mode>, stray: byte)
    returns (next: seq<byte>, modes': seq<Mode>)
    requires c.ledsPerLevel >= 1 && |cur| == c.ledsPerLevel * c.torchLevels
    requires |modes| == |cur|
    requires BottomRowReady(c, modes)
    ensures (next, modes') == Pass(c, cur, modes, |cur|, stray)
  {
    var n := |cur|;
    var lpl := c.ledsPerLevel;
    LevelsNonNegative(lpl, c.torchLevels);
    var nx := new byte[n];
    var m := new Mode[n](k requires 0 <= k < n => modes[k]);
    var y := 0;
    var i := 0;
    while y < c.torchLevels
      invariant 0 <= y <= c.torchLevels
      invariant i == lpl * y && i <= n
      invariant nx[..i] == Pass(c, cur, modes, i, stray).0
      invariant m[..] == Pass(c, cur, modes, i, stray).1
    {
      GridIndex(lpl, c.torchLevels, y, lpl - 1);
      assert i == y * lpl;
      CalcRow(c, cur, modes, m, nx, y, stray);
      i := i + lpl;
      y := y + 1;
      assert i == lpl * y by {
        assert lpl * y == lpl * (y - 1) + lpl;
      }
    }
    next, modes' := nx[..], m[..];
    assert nx[..] == nx[..i];
  }
}

=== FILE: text.dfy ===
/**
 The scrolling-text renderer of the torch (torch.c): the bounded message copy
 `newMessage`, the brightness split `crossFade`, and `renderText`, which
 draws one column slice of the message into the text layer (one byte per LED
 of the text band) and advances the scroll/repeat state.

 The font is not part of this model's sources, so its constants
 (`ROWS_PER_GLYPH`, `BYTES_PER_GLYPH`, `GLYPH_SPACING`, `NUM_GLYPHS`) and the
 `fontBytes` table are the fields of a `Font` value; `WellFormed` states what
 the renderer needs of them. The layer index of glyph row `row` and logical
 column `x` is `CellIndex`; it is a bijection onto the layer.
 */
module TextRender {
  import opened Bytes
  import opened TorchConfig

  /** The font constants and the glyph column table. */
  datatype Font = Font(rowsPerGlyph: int, bytesPerGlyph: int, glyphSpacing: int, numGlyphs: int,
                       fontBytes: seq<byte>)

  /** A usable font: at least one row and one column per glyph, and a table
      that holds every glyph the clamp in `renderText` can select (index 95 is
      the substitute for characters past the font). */
  predicate WellFormed(f: Font)
  {
    f.rowsPerGlyph >= 1 && f.bytesPerGlyph >= 1 && f.glyphSpacing >= 0 && f.numGlyphs >= 1 &&
    |f.fontBytes| >= Max(f.numGlyphs, 96) * f.bytesPerGlyph
  }

  /** `BYTES_PER_GLYPH + GLYPH_SPACING`: the columns one character takes. */
  function PixelsPerChar(f: Font): int { f.bytesPerGlyph + f.glyphSpacing }

  /** The scroll state: the message without its NUL (`text`, `textLen`),
      `textPixelOffset`, `textCycleCount` and `repeatCount`. */
  datatype TextState = TextState(text: seq<byte>, offset: int, cycle: int, repeats: int)

  /** Capacity of `char text[100]`, less the terminating NUL. */
  const MaxTextLen := 99

  /** `newMessage`: `strlcpy` into the 100-byte buffer keeps at most 99 bytes of
      the C string, and the scroll restarts just right of the visible area. */
  function NewMessage(c: Config, msg: seq<byte>): (r: TextState)
    ensures |r.text| <= MaxTextLen
    ensures r.text <= msg
    ensures forall k :: 0 <= k < |r.text| ==> r.text[k] != 0
    ensures |r.text| < MaxTextLen ==> |r.text| == |msg| || msg[|r.text|] == 0
    ensures r.offset == -c.ledsPerLevel && r.cycle == 0 && r.repeats == 0
  {
    var n := Min(MaxTextLen, CStrLen(msg));
    TextState(msg[..n], -c.ledsPerLevel, 0, 0)
  }

  /** `crossFade`: splits `value` into the brightness of the current pixel
      (first) and of its left neighbour (second), by `fader` above a fixed base. */
  function CrossFade(fadeBase: byte, fader: byte, value: byte): (r: (byte, byte))
    ensures r.0 <= value && r.1 <= value
    ensures r.0 + r.1 == (value * fadeBase) / 256 + value
    ensures fader == 0 ==> r.0 == value
  {
    ByteProduct(value, fadeBase);
    var base := (value * fadeBase) / 256;
    var variable := value - base;
    ByteProduct(variable, fader);
    var fade := (variable * fader) / 256;
    (base + (variable - fade), base + fade)
  }

  /** `maxBright`, computed in `uint8_t`: it wraps when the fade exceeds the intensity. */
  function MaxBright(c: Config): (r: byte)
    ensures (r - (c.textIntensity - c.textRepeats * c.fadePerRepeat)) % 256 == 0
    ensures 0 <= c.textRepeats && c.textRepeats * c.fadePerRepeat <= c.textIntensity ==>
              r == c.textIntensity - c.textRepeats * c.fadePerRepeat <= c.textIntensity
  {
    ToByte(c.textIntensity - c.textRepeats * c.fadePerRepeat)
  }

  /** With no repeat fade (the only value the configuration loader leaves),
      the cap is the configured intensity. */
  lemma MaxBrightWithoutRepeats(c: Config)
    requires c.textRepeats == 0
    ensures MaxBright(c) == c.textIntensity
  {
  }

  /** The wrap: intensity 10 faded by 15 gives a cap of 251, not 0. */
  lemma MaxBrightWraps(c: Config)
    requires c.textIntensity == 10 && c.textRepeats == 1 && c.fadePerRepeat == 15
    ensures MaxBright(c) == 251
  {
  }

  /** The cross-fade position, `255 * textCycleCount / text_cycles_per_px`, as a byte. */
  function Fader(c: Config, st: TextState): (r: byte)
    requires c.textCyclesPerPx != 0
    ensures st.cycle == 0 ==> r == 0
    ensures 0 <= st.cycle < c.textCyclesPerPx ==> r < 255
  {
    FaderBelowFull(st.cycle, c.textCyclesPerPx);
    ToByte(CDiv(255 * st.cycle, c.textCyclesPerPx))
  }

  /** Serves `Fader`: within a column step the fade position stays below 255. */
  lemma FaderBelowFull(cycle: int, n: int)
    requires 0 < n
    ensures 0 <= cycle < n ==> 0 <= (255 * cycle) / n < 255
  {
    if 0 <= cycle < n {
      var q := (255 * cycle) / n;
      assert 255 * cycle == q * n + (255 * cycle) % n;
      if q >= 255 {
        MulMonotone(n, 255, q);
        MulMonotone(255, cycle, n);
        assert false;
      }
    }
  }

  /** (thisBright, nextBright) for the frame. */
  function Brights(c: Config, st: TextState): (r: (byte, byte))
    requires c.textCyclesPerPx != 0
    ensures r.0 <= MaxBright(c) && r.1 <= MaxBright(c)
  {
    CrossFade(c.fadeBase, Fader(c, st), MaxBright(c))
  }

  /** A C `char`, taken as signed, as on x86. */
  function SignedChar(b: byte): int
  {
    if b < 128 then b else b - 256
  }

  /** The glyph number after `c -= 0x20` in `char` and the clamp of
      everything at or past `NUM_GLYPHS` to glyph 95. */
  function GlyphIndex(f: Font, b: byte): (g: int)
    ensures -128 <= g < 128
    ensures g >= 0 ==> g < f.numGlyphs || g == 95
  {
    var ch := SignedChar(ToByte(b - 0x20));
    if ch >= f.numGlyphs then 95 else ch
  }

  /** A printable character selects its own glyph. */
  lemma PrintableGlyph(f: Font, b: byte)
    requires 0x20 <= b < 0x20 + f.numGlyphs && b < 0x80
    ensures GlyphIndex(f, b) == b - 0x20
  {
  }

  /** The hazard: a control character (and a byte from 0xA0 up) gives a
      negative glyph number, which the clamp does not catch. */
  lemma ControlCharNegativeGlyph(f: Font, b: byte)
    requires WellFormed(f)
    requires b < 0x20 || b >= 0xA0
    ensures GlyphIndex(f, b) < 0
  {
  }

  /** A read of `fontBytes[k]`; a negative `k` lies before the table, and the
      byte found there is `outside(k)`. */
  function FontByte(f: Font, k: int, outside: int -> byte): byte
  {
    if 0 <= k < |f.fontBytes| then f.fontBytes[k] else outside(k)
  }

  /** Every glyph the clamp can select is inside the table. */
  lemma GlyphInTable(f: Font, g: int, col: int)
    requires WellFormed(f)
    requires 0 <= g && (g < f.numGlyphs || g == 95) && 0 <= col < f.bytesPerGlyph
    ensures 0 <= g * f.bytesPerGlyph + col < |f.fontBytes|
  {
    MulMonotone(f.bytesPerGlyph, 0, g);
    MulMonotone(f.bytesPerGlyph, g + 1, Max(f.numGlyphs, 96));
    assert (g + 1) * f.bytesPerGlyph == g * f.bytesPerGlyph + f.bytesPerGlyph;
  }

  /** The glyph column shown at logical column `x` (0 for the two last
      columns, before the text, between glyphs and after the text). */
  function Column(c: Config, f: Font, st: TextState, x: int, outside: int -> byte): (r: byte)
    requires WellFormed(f)
    ensures x >= c.ledsPerLevel - 2 || st.offset + x < 0 ==> r == 0
    ensures 0 <= st.offset + x && (st.offset + x) % PixelsPerChar(f) >= f.bytesPerGlyph ==> r == 0
    ensures st.offset + x >= |st.text| * PixelsPerChar(f) ==> r == 0
  {
    DivAtLeast(st.offset + x, PixelsPerChar(f), |st.text|);
    if x < c.ledsPerLevel - 2 && st.offset + x >= 0 then
      var p := st.offset + x;
      var charIndex := p / PixelsPerChar(f);
      var glyphOffset := p % PixelsPerChar(f);
      if charIndex < |st.text| && glyphOffset < f.bytesPerGlyph then
        FontByte(f, GlyphIndex(f, st.text[charIndex]) * f.bytesPerGlyph + glyphOffset, outside)
      else 0
    else 0
  }

  /** Serves `GlyphBit`: `0x40 >> row` is `2^(6 - row)`. */
  function Pow2(k: nat): (p: nat)
    ensures p >= 1
  {
    if k == 0 then 1 else 2 * Pow2(k - 1)
  }

  /** `column & (0x40 >> row)`: bit `6 - row` of the column; glyph rows from 7 on are blank. */
  predicate GlyphBit(column: byte, row: int): (r: bool)
    ensures r ==> 0 <= row <= 6 && column != 0
  {
    0 <= row <= 6 && (column / Pow2(6 - row)) % 2 == 1
  }

  /** The LED of glyph row `row`, logical column `x`: mirrored within the
      level when the strip is wound clockwise. */
  function CellIndex(lpl: int, wound: int, row: int, x: int): (i: int)
    ensures 0 <= x < lpl ==> row * lpl <= i < row * lpl + lpl
  {
    if wound != 0 then (row + 1) * lpl - 1 - x else row * lpl + x
  }

  /** The glyph row (level) of text-layer byte `i`. */
  function RowOf(lpl: int, i: int): (row: int)
    requires lpl > 0
    ensures 0 <= i ==> 0 <= row
  {
    i / lpl
  }

  /** Every layer index lies in one of the glyph rows. */
  lemma RowInRange(lpl: int, rows: int, i: int)
    requires lpl > 0 && 0 <= i < lpl * rows
    ensures 0 <= RowOf(lpl, i) < rows
  {
    var row := i / lpl;
    assert i == row * lpl + i % lpl;
    if row >= rows {
      MulMonotone(lpl, rows, row);
      assert false;
    }
  }

  /** The logical column of text-layer byte `i`, mirrored when wound clockwise. */
  function ColumnOf(lpl: int, wound: int, i: int): int
    requires lpl > 0
  {
    if wound != 0 then lpl - 1 - i % lpl else i % lpl
  }

  /** Serves `CellIndexInverse`: `i` lies in level `row` exactly when it is `row * lpl` plus a column. */
  lemma DivUnique(lpl: int, row: int, i: int)
    requires lpl > 0 && 0 <= row
    requires row * lpl <= i < row * lpl + lpl
    ensures i / lpl == row && i % lpl == i - row * lpl
  {
    var q, r := i / lpl, i % lpl;
    assert i == q * lpl + r;
    if q < row {
      MulMonotone(lpl, q + 1, row);
      assert false;
    } else if q > row {
      MulMonotone(lpl, row + 1, q);
      assert false;
    }
  }

  /** `CellIndex` stays inside the layer and `RowOf`/`ColumnOf` invert it. */
  lemma CellIndexInverse(lpl: int, rows: int, wound: int, row: int, x: int)
    requires lpl > 0 && 0 <= row < rows && 0 <= x < lpl
    ensures 0 <= CellIndex(lpl, wound, row, x) < lpl * rows
    ensures RowOf(lpl, CellIndex(lpl, wound, row, x)) == row
    ensures ColumnOf(lpl, wound, CellIndex(lpl, wound, row, x)) == x
  {
    var i := CellIndex(lpl, wound, row, x);
    assert (row + 1) * lpl == row * lpl + lpl;
    MulMonotone(lpl, 0, row);
    MulMonotone(lpl, row + 1, rows);
    DivUnique(lpl, row, i);
  }

  /** Every index of the layer is the cell of its row and column, so the two
      loops of `renderText` reach every byte of the layer. */
  lemma CellIndexCovers(lpl: int, rows: int, wound: int, i: int)
    requires lpl > 0 && 0 <= i < lpl * rows
    ensures 0 <= RowOf(lpl, i) < rows && 0 <= ColumnOf(lpl, wound, i) < lpl
    ensures CellIndex(lpl, wound, RowOf(lpl, i), ColumnOf(lpl, wound, i)) == i
  {
    var row := i / lpl;
    assert i == row * lpl + i % lpl;
    if row >= rows {
      MulMonotone(lpl, rows, row);
      assert false;
    }
    assert (row + 1) * lpl == row * lpl + lpl;
  }

  /** Two different cells never share an LED. */
  lemma CellIndexInjective(lpl: int, rows: int, wound: int, r1: int, x1: int, r2: int, x2: int)
    requires lpl > 0 && 0 <= r1 < rows && 0 <= x1 < lpl && 0 <= r2 < rows && 0 <= x2 < lpl
    requires CellIndex(lpl, wound, r1, x1) == CellIndex(lpl, wound, r2, x2)
    ensures r1 == r2 && x1 == x2
  {
    CellIndexInverse(lpl, rows, wound, r1, x1);
    CellIndexInverse(lpl, rows, wound, r2, x2);
  }

  /** The byte a cell gets when its own column is drawn: `thisBright` where the glyph has a dot. */
  function BaseCell(c: Config, f: Font, st: TextState, outside: int -> byte, row: int, x: int): byte
    requires WellFormed(f) && c.textCyclesPerPx != 0
  {
    if GlyphBit(Column(c, f, st, x, outside), row) then Brights(c, st).0 else 0
  }

  /** The final byte of a cell after `renderText`: its own dot, brightened by
      `nextBright` (saturating, then capped at `maxBright`) when the cell to its
      right has a dot. */
  function RenderedCell(c: Config, f: Font, st: TextState, outside: int -> byte, row: int, x: int): (r: byte)
    requires WellFormed(f) && c.textCyclesPerPx != 0
    ensures BaseCell(c, f, st, outside, row, x) <= r <= MaxBright(c)
    ensures (!GlyphBit(Column(c, f, st, x, outside), row) &&
             !(x + 1 < c.ledsPerLevel && GlyphBit(Column(c, f, st, x + 1, outside), row))) ==> r == 0
  {
    var base := BaseCell(c, f, st, outside, row, x);
    if x + 1 < c.ledsPerLevel && GlyphBit(Column(c, f, st, x + 1, outside), row) then
      Min(Sat8Add(base, Brights(c, st).1), MaxBright(c))
    else base
  }

  /** No text byte exceeds `maxBright`. */
  lemma RenderedBelowMax(c: Config, f: Font, st: TextState, outside: int -> byte, row: int, x: int)
    requires WellFormed(f) && c.textCyclesPerPx != 0
    ensures RenderedCell(c, f, st, outside, row, x) <= MaxBright(c)
  {
  }

  /** The two last logical columns of every level stay dark. */
  lemma LastColumnsDark(c: Config, f: Font, st: TextState, outside: int -> byte, row: int, x: int)
    requires WellFormed(f) && c.textCyclesPerPx != 0
    requires c.ledsPerLevel - 2 <= x
    ensures RenderedCell(c, f, st, outside, row, x) == 0
  {
    assert Column(c, f, st, x, outside) == 0;
    assert Column(c, f, st, x + 1, outside) == 0;
    BlankColumn(row);
  }

  /** A zero column has no dot in any row. */
  lemma BlankColumn(row: int)
    ensures !GlyphBit(0, row)
  {
  }

  /** An empty message draws nothing. */
  lemma EmptyMessageDark(c: Config, f: Font, st: TextState, outside: int -> byte, row: int, x: int)
    requires WellFormed(f) && c.textCyclesPerPx != 0
    requires st.text == []
    ensures RenderedCell(c, f, st, outside, row, x) == 0
  {
    EmptyTextBlank(c, f, st, outside, x);
    EmptyTextBlank(c, f, st, outside, x + 1);
    BlankColumn(row);
  }

  /** Every column of an empty message is zero: no character index is in range. */
  lemma EmptyTextBlank(c: Config, f: Font, st: TextState, outside: int -> byte, x: int)
    requires WellFormed(f) && st.text == []
    ensures Column(c, f, st, x, outside) == 0
  {
    var p := st.offset + x;
    if x < c.ledsPerLevel - 2 && p >= 0 {
      DivNonNegative(p, PixelsPerChar(f));
    }
  }

  /** A quotient is at least `n` once the dividend reaches `n` times the divisor. */
  lemma DivAtLeast(a: int, b: int, n: int)
    requires 0 < b
    ensures n * b <= a ==> n <= a / b
  {
    var q := a / b;
    assert a == q * b + a % b;
    if n * b <= a && q < n {
      MulMonotone(b, q + 1, n);
      assert false;
    }
  }

  /** Serves `Column`: the character index of a visible column is not negative. */
  lemma DivNonNegative(a: int, b: int)
    requires 0 <= a && 0 < b
    ensures a / b >= 0
  {
  }

  /** The scroll step at the end of `renderText`: one cycle more; every
      `text_cycles_per_px` cycles the text moves one column, and once it has
      moved past its end it either restarts or, after the last repeat, is removed. */
  function AdvanceScroll(c: Config, f: Font, st: TextState): (r: TextState)
    requires c.textCyclesPerPx != 0
    ensures 0 <= st.cycle + 1 ==> 0 <= r.cycle < c.textCyclesPerPx
    ensures r.text == st.text || r.text == []
    ensures r.repeats == (if st.cycle + 1 >= c.textCyclesPerPx && st.offset + 1 > |st.text| * PixelsPerChar(f)
                          then st.repeats + 1 else st.repeats)
  {
    if st.cycle + 1 < c.textCyclesPerPx then st.(cycle := st.cycle + 1)
    else if st.offset + 1 <= |st.text| * PixelsPerChar(f) then st.(offset := st.offset + 1, cycle := 0)
    else if c.textRepeats != 0 && st.repeats + 1 >= c.textRepeats then
      TextState([], st.offset + 1, 0, st.repeats + 1)
    else TextState(st.text, -c.ledsPerLevel, 0, st.repeats + 1)
  }

  /** `k` successive scroll steps. */
  function Scroll(c: Config, f: Font, st: TextState, k: nat): TextState
    requires c.textCyclesPerPx != 0
  {
    if k == 0 then st else AdvanceScroll(c, f, Scroll(c, f, st, k - 1))
  }

  /** Within a column step only the cycle counter moves. */
  lemma {:induction false} CyclesWithinColumn(c: Config, f: Font, st: TextState, k: nat)
    requires c.textCyclesPerPx != 0 && st.cycle == 0
    requires k < c.textCyclesPerPx
    ensures Scroll(c, f, st, k) == st.(cycle := k)
  {
    if k > 0 {
      CyclesWithinColumn(c, f, st, k - 1);
    }
  }

  /** From the start of a column step, exactly `text_cycles_per_px` calls move
      the text one column (when that does not pass its end). */
  lemma OffsetAdvancesEveryCycles(c: Config, f: Font, st: TextState)
    requires c.textCyclesPerPx != 0 && st.cycle == 0
    requires st.offset + 1 <= |st.text| * PixelsPerChar(f)
    ensures Scroll(c, f, st, c.textCyclesPerPx) == st.(offset := st.offset + 1)
  {
    CyclesWithinColumn(c, f, st, c.textCyclesPerPx - 1);
  }

  /** Passing the end of the text restarts it at the right edge unless the
      repeat budget is used up, in which case the text is removed. */
  lemma EndOfText(c: Config, f: Font, st: TextState)
    requires c.textCyclesPerPx != 0
    requires st.cycle + 1 >= c.textCyclesPerPx && st.offset + 1 > |st.text| * PixelsPerChar(f)
    ensures var r := AdvanceScroll(c, f, st);
            r.repeats == st.repeats + 1 && r.cycle == 0 &&
            (if c.textRepeats != 0 && r.repeats >= c.textRepeats then r.text == []
             else r.text == st.text && r.offset == -c.ledsPerLevel)
  {
  }

  /** With `text_repeats` 0 the message is never removed. */
  lemma NoRepeatLimitKeepsText(c: Config, f: Font, st: TextState, k: nat)
    requires c.textCyclesPerPx != 0 && c.textRepeats == 0
    ensures Scroll(c, f, st, k).text == st.text
  {
  }

  /** Byte `k` of the layer while column `x` is being drawn: columns left of
      `x - 1` are final, column `x - 1` holds its own dots, the rest is untouched. */
  function Stage(c: Config, f: Font, st: TextState, outside: int -> byte, layer: seq<byte>, x: int, k: int): byte
    requires WellFormed(f) && c.textCyclesPerPx != 0 && c.ledsPerLevel >= 1
    requires 0 <= k < |layer|
  {
    var row, x' := RowOf(c.ledsPerLevel, k), ColumnOf(c.ledsPerLevel, c.woundCwise, k);
    if x' + 1 < x then RenderedCell(c, f, st, outside, row, x')
    else if x' + 1 == x then BaseCell(c, f, st, outside, row, x')
    else layer[k]
  }

  /** `renderText`: redraws the whole text layer and advances the scroll state. */
  method RenderText(c: Config, f: Font, st: TextState, layer: seq<byte>, outside: int -> byte)
    returns (layer': seq<byte>, st': TextState)
    requires WellFormed(f) && c.textCyclesPerPx != 0 && c.ledsPerLevel >= 1
    requires |layer| == c.ledsPerLevel * f.rowsPerGlyph
    ensures |layer'| == |layer|
    ensures forall i :: 0 <= i < |layer'| ==>
              layer'[i] == RenderedCell(c, f, st, outside, RowOf(c.ledsPerLevel, i), ColumnOf(c.ledsPerLevel, c.woundCwise, i))
    ensures forall row, x :: 0 <= row < f.rowsPerGlyph && 0 <= x < c.ledsPerLevel ==>
              0 <= CellIndex(c.ledsPerLevel, c.woundCwise, row, x) < |layer'| &&
              layer'[CellIndex(c.ledsPerLevel, c.woundCwise, row, x)] == RenderedCell(c, f, st, outside, row, x)
    ensures st' == AdvanceScroll(c, f, st)
  {
    var lpl, rows := c.ledsPerLevel, f.rowsPerGlyph;
    var l := layer;
    var x := 0;
    while x < lpl
      invariant 0 <= x <= lpl && |l| == |layer|
      invariant forall k :: 0 <= k < |l| ==> l[k] == Stage(c, f, st, outside, layer, x, k)
    {
      l := RenderColumn(c, f, st, outside, layer, l, x);
      x := x + 1;
    }
    forall i | 0 <= i < |l|
      ensures l[i] == RenderedCell(c, f, st, outside, RowOf(lpl, i), ColumnOf(lpl, c.woundCwise, i))
    {
      CellIndexCovers(lpl, rows, c.woundCwise, i);
    }
    forall row, x' | 0 <= row < rows && 0 <= x' < lpl
      ensures 0 <= CellIndex(lpl, c.woundCwise, row, x') < |l|
      ensures l[CellIndex(lpl, c.woundCwise, row, x')] == RenderedCell(c, f, st, outside, row, x')
    {
      CellIndexInverse(lpl, rows, c.woundCwise, row, x');
    }
    layer' := l;
    st' := AdvanceScroll(c, f, st);
  }

  /** One pass of the outer loop of `renderText`: draws logical column `x`
      in every glyph row and brightens column `x - 1` beside its dots. */
  method RenderColumn(c: Config, f: Font, st: TextState, outside: int -> byte, layer: seq<byte>, l: seq<byte>, x: int)
    returns (l': seq<byte>)
    requires WellFormed(f) && c.textCyclesPerPx != 0 && c.ledsPerLevel >= 1
    requires |layer| == c.ledsPerLevel * f.rowsPerGlyph && |l| == |layer|
    requires 0 <= x < c.ledsPerLevel
    requires forall k :: 0 <= k < |l| ==> l[k] == Stage(c, f, st, outside, layer, x, k)
    ensures |l'| == |l|
    ensures forall k :: 0 <= k < |l'| ==> l'[k] == Stage(c, f, st, outside, layer, x + 1, k)
  {
    var lpl, rows := c.ledsPerLevel, f.rowsPerGlyph;
    var column := Column(c, f, st, x, outside);
    l' := l;
    var glyphRow := 0;
    while glyphRow < rows
      invariant 0 <= glyphRow <= rows && |l'| == |l|
      invariant forall k :: 0 <= k < |l'| ==>
                  l'[k] == Stage(c, f, st, outside, layer, if RowOf(lpl, k) < glyphRow then x + 1 else x, k)
    {
      l' := RenderDot(c, f, st, outside, layer, l', column, glyphRow, x);
      glyphRow := glyphRow + 1;
    }
    forall k | 0 <= k < |l'|
      ensures l'[k] == Stage(c, f, st, outside, layer, x + 1, k)
    {
      RowInRange(lpl, rows, k);
    }
  }

  /** One pass of the inner loop of `renderText`: the cell of glyph row
      `glyphRow` in column `x`, and its left neighbour when the cell has a dot. */
  method RenderDot(c: Config, f: Font, st: TextState, outside: int -> byte, layer: seq<byte>, l: seq<byte>,
                   column: byte, glyphRow: int, x: int)
    returns (l': seq<byte>)
    requires WellFormed(f) && c.textCyclesPerPx != 0 && c.ledsPerLevel >= 1
    requires |layer| == c.ledsPerLevel * f.rowsPerGlyph && |l| == |layer|
    requires 0 <= x < c.ledsPerLevel && 0 <= glyphRow < f.rowsPerGlyph
    requires column == Column(c, f, st, x, outside)
    requires forall k :: 0 <= k < |l| ==>
               l[k] == Stage(c, f, st, outside, layer, if RowOf(c.ledsPerLevel, k) < glyphRow then x + 1 else x, k)
    ensures |l'| == |l|
    ensures forall k :: 0 <= k < |l'| ==>
              l'[k] == Stage(c, f, st, outside, layer, if RowOf(c.ledsPerLevel, k) < glyphRow + 1 then x + 1 else x, k)
  {
    var lpl, rows := c.ledsPerLevel, f.rowsPerGlyph;
    var maxBright := MaxBright(c);
    var brights := Brights(c, st);
    var thisBright, nextBright := brights.0, brights.1;
    var i, leftstep;
    if c.woundCwise != 0 {
      i := (glyphRow + 1) * lpl - 1 - x; // x-direction mirrored
      leftstep := 1;
    } else {
      i := glyphRow * lpl + x;
      leftstep := -1;
    }
    assert i == CellIndex(lpl, c.woundCwise, glyphRow, x);
    CellIndexInverse(lpl, rows, c.woundCwise, glyphRow, x);
    var j := i + leftstep;
    if x > 0 {
      assert j == CellIndex(lpl, c.woundCwise, glyphRow, x - 1);
      CellIndexInverse(lpl, rows, c.woundCwise, glyphRow, x - 1);
    }
    if GlyphBit(column, glyphRow) {
      l' := l[i := thisBright];
      if x > 0 {
        // also brighten the pixel to the left
        var v := Sat8Add(l'[j], nextBright);
        if v > maxBright {
          v := maxBright;
        }
        l' := l'[j := v];
      }
    } else {
      l' := l[i := 0];
    }
    forall k | 0 <= k < |l'|
      ensures l'[k] == Stage(c, f, st, outside, layer, if RowOf(lpl, k) < glyphRow + 1 then x + 1 else x, k)
    {
      CellIndexCovers(lpl, rows, c.woundCwise, k);
      var col := ColumnOf(lpl, c.woundCwise, k);
      if k == i {
        assert l'[k] == BaseCell(c, f, st, outside, glyphRow, x);
      } else if RowOf(lpl, k) == glyphRow && col != x && col != x - 1 {
        StageStable(c, f, st, outside, layer, x, k);
      }
    }
  }

  /** Drawing column `x` leaves the cells of every other column except `x - 1` as they were. */
  lemma StageStable(c: Config, f: Font, st: TextState, outside: int -> byte, layer: seq<byte>, x: int, k: int)
    requires WellFormed(f) && c.textCyclesPerPx != 0 && c.ledsPerLevel >= 1
    requires 0 <= k < |layer|
    requires ColumnOf(c.ledsPerLevel, c.woundCwise, k) != x && ColumnOf(c.ledsPerLevel, c.woundCwise, k) != x - 1
    ensures Stage(c, f, st, outside, layer, x, k) == Stage(c, f, st, outside, layer, x + 1, k)
  {
  }
}

=== FILE: torch.dfy ===
/**
 Setup and the frame loop of the torch (torch.c): `create_torch` sizes the
 buffers and fills the four-byte Open Pixel Control header, and one pass of
 the loop in `run_torch` restarts the message every 300 frames, renders the
 text, injects flame and sparks, advances the energy field, composes the
 colours and sends the frame.

 The socket `send` is the parameter `sendOk`; `rand()` is the oracle `rnd`;
 the bytes read past the energy buffers and before the font table are the
 parameters `strayCur`, `strayNext` and `outside`.
 */
module Torch {
  import opened Bytes
  import opened TorchConfig
  import opened Energy
  import opened Colour
  import opened TextRender

  /** The Open Pixel Control "set pixel colours" header: channel, command 0,
      and the length of the pixel data (3 bytes a pixel), most significant
      byte first. Each byte is stored through a `uint8_t`. */
  function Header(chan: int, numleds: u16): (h: seq<byte>)
    ensures |h| == 4 && h[0] == ToByte(chan) && h[1] == 0
    ensures numleds * 3 < 0x1_0000 ==> HeaderLength(h) == numleds * 3
  {
    [ToByte(chan), 0, ToByte((numleds * 3) / 256), (numleds * 3) % 256]
  }

  /** The length field of a header, as a receiver decodes it. */
  function HeaderLength(h: seq<byte>): int
    requires |h| == 4
  {
    (h[2] as int) * 256 + h[3]
  }

  /** The geometry of the shipped configuration, 11 LEDs a level and 21
      levels: 231 pixels, 693 bytes of pixel data, length bytes 0x02 0xB5. */
  lemma DefaultGeometryHeader(chan: byte)
    ensures ToU16(11 * 21) == 231
    ensures Header(chan, 231) == [chan, 0, 0x02, 0xB5]
  {
  }

  /** A strip of 21846 pixels or more does not fit the 16-bit length field:
      the length the header announces is the true one modulo 65536. */
  lemma LongStripLengthWraps()
    ensures HeaderLength(Header(0, 21846)) == 2
  {
  }

  /** The torch's buffers and state between frames. */
  datatype Torch = Torch(
    numleds: u16,
    header: seq<byte>,
    cur: seq<byte>,
    next: seq<byte>,
    modes: seq<Mode>,
    pixels: seq<Rgb>,
    layer: seq<byte>,
    text: TextState,
    frame: int)

  /** What a created torch keeps true: buffer sizes, header and frame count. */
  predicate Running(c: Config, f: Font, t: Torch)
  {
    c.ledsPerLevel >= 1 && t.numleds > 0 &&
    t.numleds == ToU16(c.ledsPerLevel * c.torchLevels) &&
    |t.cur| == t.numleds && |t.next| == t.numleds && |t.modes| == t.numleds && |t.pixels| == t.numleds &&
    |t.layer| == c.ledsPerLevel * f.rowsPerGlyph &&
    t.header == Header(c.torchChan, t.numleds) &&
    t.frame >= 0
  }

  /** The two `assert`s of `create_torch`. */
  datatype SetupFault = NoLeds | NoTextPixels

  datatype Setup = Ready(torch: Torch) | SetupFailed(fault: SetupFault)

  /** The static scroll state before any message: all zero. */
  const InitialText := TextState([], 0, 0, 0)

  /** `create_torch`: `numleds` is `leds_per_level * torch_levels` stored in
      `uint16_t`; both counts must be positive; energy, modes and text layer
      start cleared. The pixel buffer is not cleared by the source; it starts
      black here, and every pixel is rewritten before the first send. */
  function CreateTorch(c: Config, f: Font): (r: Setup)
    requires WellFormed(f)
    ensures r.SetupFailed? <==> ToU16(c.ledsPerLevel * c.torchLevels) == 0 || c.ledsPerLevel * f.rowsPerGlyph <= 0
    ensures r.Ready? ==> Running(c, f, r.torch) && r.torch.frame == 0 && r.torch.text == InitialText
    ensures r.Ready? ==> forall i :: 0 <= i < r.torch.numleds ==>
              r.torch.cur[i] == 0 && r.torch.next[i] == 0 && r.torch.modes[i] == Passive
    ensures r.Ready? ==> forall i :: 0 <= i < |r.torch.layer| ==> r.torch.layer[i] == 0
  {
    var numleds := ToU16(c.ledsPerLevel * c.torchLevels);
    var textPixels := c.ledsPerLevel * f.rowsPerGlyph;
    if numleds == 0 then SetupFailed(NoLeds)
    else if textPixels <= 0 then SetupFailed(NoTextPixels)
    else
      assert c.ledsPerLevel >= 1 by {
        if c.ledsPerLevel <= 0 {
          MulMonotone(f.rowsPerGlyph, c.ledsPerLevel, 0);
        }
      }
      var energy := ResetEnergy(numleds);
      Ready(Torch(numleds, Header(c.torchChan, numleds), energy.0, energy.1, energy.2,
                  seq(numleds, _ => Rgb(0, 0, 0)), seq(textPixels, _ => 0), InitialText, 0))
  }

  /** The size `create_torch` requests for the text layer as written: the
      value of `textPixelOffset`, not `textPixels`. */
  function TextLayerRequest(st: TextState): int
  {
    st.offset
  }

  /** At setup `textPixelOffset` is still 0, so the text layer gets 0 bytes,
      while `resetText` and `renderText` write `textPixels` (at least 1) bytes into it. */
  lemma TextLayerRequestTooSmall(c: Config, f: Font)
    requires WellFormed(f) && CreateTorch(c, f).Ready?
    ensures TextLayerRequest(InitialText) == 0
    ensures TextLayerRequest(InitialText) < c.ledsPerLevel * f.rowsPerGlyph == |CreateTorch(c, f).torch.layer|
  {
  }

  // ---------------------------------------------------------------------------
  // The frame counter as text

  /** `snprintf("%d", n)` for a non-negative `n`: its decimal digits. */
  function DecimalString(n: nat): (s: seq<byte>)
    ensures 1 <= |s|
    ensures forall k :: 0 <= k < |s| ==> '0' as int <= s[k] <= '9' as int
    decreases n
  {
    if n < 10 then [n + '0' as int] else DecimalString(n / 10) + [n % 10 + '0' as int]
  }

  /** Every byte is an ASCII decimal digit. */
  predicate AllDigits(s: seq<byte>)
  {
    forall k :: 0 <= k < |s| ==> '0' as int <= s[k] <= '9' as int
  }

  /** The number a string of decimal digits denotes. */
  function DecimalValue(s: seq<byte>): nat
    requires AllDigits(s)
  {
    if |s| == 0 then 0 else 10 * DecimalValue(s[..|s| - 1]) + (s[|s| - 1] - '0' as int)
  }

  /** The decimal text of the frame counter denotes the counter. */
  lemma {:induction false} DecimalRoundTrip(n: nat)
    ensures DecimalValue(DecimalString(n)) == n
    decreases n
  {
    var s := DecimalString(n);
    if n >= 10 {
      DecimalRoundTrip(n / 10);
      assert s[..|s| - 1] == DecimalString(n / 10);
    }
  }

  /** No counter below 10^99 loses a digit in `newMessage`. */
  lemma {:induction false} DecimalFitsMessage(n: nat, digits: nat)
    requires n < Pow10(digits)
    ensures |DecimalString(n)| <= Max(1, digits)
    decreases n
  {
    if n >= 10 {
      assert digits >= 2;
      DecimalFitsMessage(n / 10, digits - 1);
    }
  }

  /** Serves `DecimalFitsMessage`: `10^k`. */
  function Pow10(k: nat): (p: nat)
    ensures p >= 1
  {
    if k == 0 then 1 else 10 * Pow10(k - 1)
  }

  // ---------------------------------------------------------------------------
  // One frame

  /** The scroll state `renderText` starts from: every 300th frame (counting
      from 0) restarts with the frame number as the message. */
  function FrameText(c: Config, t: Torch): (st: TextState)
    requires 0 <= t.frame < 0x8000_0000
    ensures t.frame % 300 == 0 ==> st.offset == -c.ledsPerLevel && st.cycle == 0 && st.repeats == 0
    ensures t.frame % 300 == 0 ==> AllDigits(st.text) && DecimalValue(st.text) == t.frame
    ensures t.frame % 300 != 0 ==> st == t.text
  {
    if t.frame % 300 == 0 then
      var msg := DecimalString(t.frame);
      DecimalRoundTrip(t.frame);
      DecimalShort(t.frame);
      assert CStrLen(msg) == |msg| by {
        assert forall k :: 0 <= k < |msg| ==> msg[k] != 0;
        CStrLenNoNul(msg);
      }
      assert NewMessage(c, msg).text == msg;
      NewMessage(c, msg)
    else t.text
  }

  /** The frame counter, an `int`, has at most 10 digits. */
  lemma DecimalShort(n: nat)
    requires n < 0x8000_0000
    ensures |DecimalString(n)| <= MaxTextLen
  {
    assert Pow10(10) == 10_000_000_000;
    DecimalFitsMessage(n, 10);
  }

  /** What ends a frame: the next frame, a failed send (the loop returns -1),
      or undefined behaviour in the source, reported instead of performed. */
  datatype Fault = DivisionByZero | BufferOverrun

  datatype Outcome = Continue | SendFailed | Crashed(fault: Fault)

  /** Division by zero, in the order the frame reaches the divisions:
      `text_cycles_per_px == 0` in `renderText`; an empty flame span at the
      first bottom-row cell of `injectRandom`; an empty spark span only once a
      second-row spark test fires, and only at a cell inside the buffer (a
      shorter buffer overruns before it gets there). A span is empty only when
      the minimum is one more than a non-zero maximum. */
  predicate DividesByZero(c: Config, t: Torch, rnd: seq<nat>): (r: bool)
    requires c.ledsPerLevel >= 1 && |t.modes| == t.numleds && 3 * c.ledsPerLevel <= |rnd|
    ensures r <==> c.textCyclesPerPx == 0 || (c.flameMax != 0 && c.flameMin == c.flameMax + 1) ||
                   SparkDivides(c, t, rnd)
    ensures c.rndSparkProb == 0 ==>
              (r <==> c.textCyclesPerPx == 0 || (c.flameMax != 0 && c.flameMin == c.flameMax + 1))
  {
    EmptySpan(c.flameMin, c.flameMax);
    c.textCyclesPerPx == 0 || !Random16Defined(c.flameMin, c.flameMax) || SparkDivides(c, t, rnd)
  }

  /** The spark span is empty and a spark test fires at a second-row cell
      that lies inside the buffer. With a spark probability of 0 no test
      fires, whatever the spark span. */
  predicate SparkDivides(c: Config, t: Torch, rnd: seq<nat>): (r: bool)
    requires c.ledsPerLevel >= 1 && |t.modes| == t.numleds && 3 * c.ledsPerLevel <= |rnd|
    ensures r ==> c.sparkMax != 0 && c.sparkMin == c.sparkMax + 1
    ensures c.rndSparkProb == 0 ==> !r
  {
    EmptySpan(c.sparkMin, c.sparkMax);
    c.ledsPerLevel <= t.numleds && !Random16Defined(c.sparkMin, c.sparkMax) &&
    FiresBefore(c, t.modes, rnd, Min(c.ledsPerLevel, t.numleds - c.ledsPerLevel))
  }

  /** The loops index past the buffers: there is no second row for the
      sparks of `injectRandom`, or the levels of `calcNextEnergy` (none when
      `torch_levels <= 0`) hold more cells than the truncated count. For a
      strip set up by `create_torch` with at least one level that is: more
      than 65535 cells, or fewer than two levels. */
  predicate Overruns(c: Config, t: Torch): (r: bool)
    ensures c.ledsPerLevel >= 1 && c.torchLevels >= 1 && t.numleds == ToU16(c.ledsPerLevel * c.torchLevels) ==>
              (r <==> c.ledsPerLevel * c.torchLevels > 0xFFFF || c.torchLevels < 2)
    ensures c.torchLevels <= 0 ==> (r <==> t.numleds < 2 * c.ledsPerLevel)
  {
    OverrunCases(c.ledsPerLevel, c.torchLevels, t.numleds);
    t.numleds < 2 * c.ledsPerLevel || (c.torchLevels > 0 && t.numleds != c.ledsPerLevel * c.torchLevels)
  }

  /** Serves `Overruns`: the truncated count differs from the product exactly
      when the product overflows, and below that it has two rows exactly when
      there are two levels. */
  lemma OverrunCases(lpl: int, levels: int, numleds: u16)
    ensures lpl >= 1 && levels >= 1 && numleds == ToU16(lpl * levels) ==>
              (numleds != lpl * levels || numleds < 2 * lpl <==> lpl * levels > 0xFFFF || levels < 2)
  {
    if lpl >= 1 && levels >= 1 && numleds == ToU16(lpl * levels) {
      MulMonotone(lpl, 1, levels);
      if lpl * levels <= 0xFFFF {
        assert numleds == lpl * levels;
        if levels >= 2 {
          MulMonotone(lpl, 2, levels);
        }
      }
    }
  }

  /** One pass of the loop body of `run_torch`. `overrun` reports the
      upside-down write one past `currentEnergy`. After a successful send the
      pacing computes `1000000 / update_rate`, a division by zero when the
      rate is 0. */
  method FrameStep(c: Config, f: Font, t: Torch, rnd: seq<nat>, outside: int -> byte,
                   strayCur: byte, strayNext: byte, sendOk: bool)
    returns (o: Outcome, t': Torch, overrun: bool)
    requires WellFormed(f) && Running(c, f, t)
    requires 0 <= t.frame < 0x7FFF_FFFF
    requires 3 * c.ledsPerLevel <= |rnd|
    ensures o == Crashed(DivisionByZero) <==>
              DividesByZero(c, t, rnd) || (!Overruns(c, t) && sendOk && c.updateRate == 0)
    ensures o == Crashed(BufferOverrun) <==> !DividesByZero(c, t, rnd) && Overruns(c, t)
    ensures o == SendFailed <==> !DividesByZero(c, t, rnd) && !Overruns(c, t) && !sendOk
    ensures o == Continue <==> !DividesByZero(c, t, rnd) && !Overruns(c, t) && sendOk && c.updateRate != 0
    ensures !DividesByZero(c, t, rnd) && !Overruns(c, t) ==>
              Running(c, f, t') && t'.frame == t.frame + 1 && t'.text == AdvanceScroll(c, f, FrameText(c, t))
    ensures !DividesByZero(c, t, rnd) && !Overruns(c, t) ==> forall i :: 0 <= i < |t'.layer| ==>
              t'.layer[i] == RenderedCell(c, f, FrameText(c, t), outside,
                                          RowOf(c.ledsPerLevel, i), ColumnOf(c.ledsPerLevel, c.woundCwise, i))
    ensures !DividesByZero(c, t, rnd) && !Overruns(c, t) ==> forall i :: 0 <= i < t.numleds ==>
              t'.pixels[i] == PixelColour(c, f.rowsPerGlyph, t'.next, t'.layer, i, strayNext)
    ensures !DividesByZero(c, t, rnd) && !Overruns(c, t) ==> forall j :: 0 <= j < t.numleds ==>
              CommittedBefore(c, f.rowsPerGlyph, t'.layer, t.numleds, t.numleds, j) ==> t'.cur[j] == t'.next[j]
    ensures !DividesByZero(c, t, rnd) && !Overruns(c, t) ==> (overrun <==> c.upsideDown != 0 && !TextCovers(c, f.rowsPerGlyph, t'.layer, 0))
    ensures !DividesByZero(c, t, rnd) && !Overruns(c, t) ==> FrameEnergy(c, f, t, rnd, strayCur, t')
  {
    t', overrun := t, false;
    if DividesByZero(c, t, rnd) {
      return Crashed(DivisionByZero), t', overrun;
    }
    if Overruns(c, t) {
      return Crashed(BufferOverrun), t', overrun;
    }
    t', overrun := RunFrame(c, f, t, rnd, outside, strayCur, strayNext);
    if !sendOk {
      return SendFailed, t', overrun;
    }
    if c.updateRate == 0 {
      return Crashed(DivisionByZero), t', overrun;
    }
    o := Continue;
  }

  /** The frame computed when nothing faults: message, text layer, injected
      energy, energy pass and colours, in the order `run_torch` calls them.
      With `torch_levels <= 0` the level loop of `calcNextEnergy` runs no
      iteration, so `nextEnergy` keeps the bytes of the previous frame. */
  method RunFrame(c: Config, f: Font, t: Torch, rnd: seq<nat>, outside: int -> byte,
                  strayCur: byte, strayNext: byte)
    returns (t': Torch, overrun: bool)
    requires WellFormed(f) && Running(c, f, t)
    requires 0 <= t.frame < 0x7FFF_FFFF
    requires 3 * c.ledsPerLevel <= |rnd|
    requires !DividesByZero(c, t, rnd) && !Overruns(c, t)
    ensures Running(c, f, t') && t'.frame == t.frame + 1 && t'.text == AdvanceScroll(c, f, FrameText(c, t))
    ensures forall i :: 0 <= i < |t'.layer| ==>
              t'.layer[i] == RenderedCell(c, f, FrameText(c, t), outside,
                                          RowOf(c.ledsPerLevel, i), ColumnOf(c.ledsPerLevel, c.woundCwise, i))
    ensures forall i :: 0 <= i < t.numleds ==>
              t'.pixels[i] == PixelColour(c, f.rowsPerGlyph, t'.next, t'.layer, i, strayNext)
    ensures forall j :: 0 <= j < t.numleds ==>
              CommittedBefore(c, f.rowsPerGlyph, t'.layer, t.numleds, t.numleds, j) ==> t'.cur[j] == t'.next[j]
    ensures overrun <==> c.upsideDown != 0 && !TextCovers(c, f.rowsPerGlyph, t'.layer, 0)
    ensures FrameEnergy(c, f, t, rnd, strayCur, t')
  {
    var lpl := c.ledsPerLevel;
    var text := FrameText(c, t);
    var layer, text' := RenderText(c, f, text, t.layer, outside);
    assert SparkDrawsDefined(c, t.modes, rnd);
    var cur1, modes1, _ := InjectRandom(c, t.cur, t.modes, rnd);
    var next, modes2;
    if c.torchLevels > 0 {
      next, modes2 := CalcNextEnergy(c, cur1, modes1, strayCur);
    } else {
      next, modes2 := t.next, modes1;
    }
    var pixels, cur2;
    pixels, cur2, overrun := CalcNextColours(c, f.rowsPerGlyph, cur1, next, layer, t.pixels, strayNext);
    t' := Torch(t.numleds, t.header, cur2, next, modes2, pixels, layer, text', t.frame + 1);
  }

  /** The energy buffers after a frame, in closed form: the pass over the
      injected buffers gives the next energy and the modes (with no levels
      there is no pass: the injected modes and the old next energy stay); a
      cell the text layer did not commit keeps its injected energy. */
  predicate FrameEnergy(c: Config, f: Font, t: Torch, rnd: seq<nat>, strayCur: byte, t': Torch)
    requires Running(c, f, t) && 3 * c.ledsPerLevel <= |rnd|
    requires !DividesByZero(c, t, rnd) && !Overruns(c, t)
  {
    assert Min(c.ledsPerLevel, t.numleds - c.ledsPerLevel) == c.ledsPerLevel;
    assert SparkDrawsDefined(c, t.modes, rnd);
    var inj := Injected(c, t.cur, t.modes, rnd);
    (t'.next, t'.modes) == (if c.torchLevels > 0 then Pass(c, inj.0, inj.1, |inj.0|, strayCur) else (t.next, inj.1)) &&
    |t'.cur| == t.numleds && |t'.layer| == f.rowsPerGlyph * c.ledsPerLevel &&
    forall j :: 0 <= j < t.numleds && !CommittedBefore(c, f.rowsPerGlyph, t'.layer, t.numleds, t.numleds, j) ==>
      t'.cur[j] == inj.0[j]
  }
}
